=== FILE: README.md ===
# Open Roberta Lab connector for ev3dev-ROS, modelled in Dafny

The connector (`roberta/lab.py`) is the network thread of a robot that takes
part in the Open Roberta Lab. It registers the robot with the lab server by
long polling, shows the user a token for the web front end, downloads the
programs the server sends, patches them for Python 3, runs them, and reports
their result on the next poll. This project models that thread and proves
properties of the model:

- the token (`generateToken`);
- the text patching and the artifact that `_store_code` writes;
- the mapping from how a program run ended to the reported exit value (`_exec_code`);
- the retry loop of `_request`, with its `/rest/` and `https` rewrites;
- the poll loop of `run`, with its command dispatch and its exception handlers.

Modules:

- `Basics`: an option type, bytes, and the Python string operations used
  (`startswith`, `in`, `s[n:]`, `split`, `join`).
- `Token`: `generateToken` with its eight random bytes as a parameter.
- `Executor`: `str.replace`, the three patches of `_store_code`, the
  artifact (path, text, mode), and `_exec_code` as a map from run outcomes
  to results.
- `Failures`: the exceptions that can end an iteration, and how the
  handlers at the end of `run` sort them into "leave the loop" and "poll
  again".
- `Protocol`: the request body (`params`), the server's answers, and the
  record of a request sent.
- `Requests`: `_request` as a function of the server's answers, with its
  termination bound and its scheme-upgrade properties.
- `Poll`: the connector's fields as a value. It describes one iteration of
  the poll loop, and the loop itself, as functions of what the server, the
  file system and the downloaded program do.
- `Lab`: the class `Connector`. Its fields are the source's fields, and its
  constructor, `Request`, `Download`, `Body`, `PollOnce` and `Run` methods
  update them in place. The constructor, `Request` and `Run` carry the
  source's loops (the interface probe, `while True` in `_request`, and
  `while self.running`); `Download`, `Body` and `PollOnce` are straight-line
  code, as in the source. Each method is proved to produce exactly the
  state and results of the matching function in `Requests` or `Poll`.

Where the code and its documentation disagree, the model follows the code:

- Patching is not idempotent. Deleting the `from __future__` line can
  splice a new copy of it together from the surrounding text
  (`Executor.FutureImportRespliced`).
- The interface probe in `__init__` breaks only out of the inner loop, so
  the MAC address sent is the one from the last kind of interface that
  answered, not the first (`Poll.LastKindWins`).
- Every iteration overwrites `firmwareversion` with the empty string before
  its first request, so the contents of /proc/version read in `__init__`
  are never sent: every request of the loop carries an empty firmware
  version (`Poll.FirmwareNeverSent`).
- The `/rest/` rewrite is not remembered. `url` is a local of `_request`
  (lab.py:117, 129), and every call starts again at `address/cmd`, so a
  server that only answers under `/rest/` costs a 404 and a retry on every
  poll (`Poll.RestForgotten`). Only the `https` upgrade is kept, because it
  is written to `self.address`.
- `running` is never cleared by the connector's own code. The loop ends only
  through `break` (lab.py:189, 217, 247), and `self.running` stays true
  afterwards (`Poll.Run`, `Lab.Connector.Run`).
- `_exec_code` re-raises `KeyboardInterrupt`, but the bare `except:` at the
  end of `run` catches it, so the loop goes on polling
  (`Poll.DownloadStoresAndReports`).
- `self.service` is never assigned by the connector. An `abort` while
  unregistered therefore raises `AttributeError`, which the catch-all
  swallows; the loop goes on with the token unchanged
  (`Poll.AbortOutcomes`).

## Model

| member | source | states |
|---|---|---|
| Token.GenerateToken | roberta/lab.py:30-36 | the token has 8 symbols; symbol `i` is the alphabet's symbol at byte `i` modulo 32; every symbol is in the alphabet and none is 0, 1, I or O |
| Token.AlphabetAvoidsAmbiguous | roberta/lab.py:31-33 | the alphabet has 32 symbols and none of them is one of the easily confused characters 0, 1, I, O |
| Token.EveryTokenReachable | roberta/lab.py:30-36 | every 8-symbol word over the alphabet is produced by some 8 bytes |
| Token.TokenDeterminesResidues | roberta/lab.py:33-36 | two byte strings give the same token only if they agree byte by byte modulo 32 (the alphabet has no repeated symbol) |
| Token.AlphabetDistinct | roberta/lab.py:33 | the 32 symbols are pairwise distinct |
| Executor.ReplaceAbsent | roberta/lab.py:78-80 | `str.replace` leaves text without the pattern unchanged |
| Executor.ReplaceRemoves | roberta/lab.py:79-80 | after a replacement whose text cannot re-create the pattern, the pattern no longer occurs |
| Executor.ReplaceKeepsAbsent | roberta/lab.py:80 | a replacement whose text cannot form a second pattern, alone or with its neighbours, keeps that pattern absent |
| Executor.StoreCode | roberta/lab.py:69-83 | the artifact lies at the given path with owner-only read, write and execute permissions; its text is the input patched in the source's order and is returned; it contains no `in xrange(` and no `#!/usr/bin/python` line |
| Executor.PatchCodeUnchanged | roberta/lab.py:78-80 | code with none of the three patterns is stored as it came |
| Basics.StartsWith | roberta/lab.py:130 | Python's `url.startswith(p)`: `p` is a prefix of the text |
| Basics.Contains | roberta/lab.py:126 | Python's `'/rest/' in url`, defined by scanning from the front |
| Basics.ContainsAt | roberta/lab.py:126 | `Contains` holds exactly when the pattern occurs at some index of the text |
| Basics.Drop | roberta/lab.py:132-133 | Python's `s[4:]`: the text after the first four characters, and empty for a shorter text |
| Executor.Replace | roberta/lab.py:78-80 | `str.replace`: a replacement no longer than the pattern never lengthens the text, and one no shorter never shortens it |
| Executor.PatchCode | roberta/lab.py:78-80 | no `in xrange(` and no python2 interpreter line survives patching |
| Executor.PatchCodeIdempotent | roberta/lab.py:78-80 | patching patched text again changes nothing when no import line was spliced together |
| Executor.FutureImportRespliced | roberta/lab.py:78 | there is input on which patching leaves the import line in place, so patching twice differs from patching once |
| Executor.DeletionSplices | roberta/lab.py:78 | deleting a line from the middle of its own first character and tail leaves the line behind |
| Executor.ExecCode | roberta/lab.py:85-114 | a finished run reports the value of `result` (0 if never assigned); a deleted `result` or any other exception gives 1; `SystemExit` gives 143; `KeyboardInterrupt`, and only it, is re-raised |
| Failures.Truthy | roberta/lab.py:225-228 | Python's truth test of `e.__cause__` and `nested_e`: `None` and the empty string are false, exceptions are true, and any other object has its own truth value |
| Failures.Nested | roberta/lab.py:222-226 | the nested exception is the first argument when there is one; otherwise it is the cause when that is truthy, and falsy otherwise |
| Failures.Retry | roberta/lab.py:227-240 | retry exactly when the nested exception is falsy or a socket error: the first argument when there are arguments, the cause otherwise |
| Failures.Stops | roberta/lab.py:214-251 | an `HTTPError` always ends the loop; a socket error, `KeyboardInterrupt` or any other exception never does; a `URLError` ends it exactly when it is not retried |
| Failures.TransportFailuresContinue | roberta/lab.py:218-249 | a socket error, bare or wrapped in a `URLError` as its argument or as its cause, never ends the loop |
| Failures.UrlErrorStops | roberta/lab.py:218-247 | a `URLError(reason)` ends the loop exactly when the reason is truthy and not a socket error |
| Failures.CauseOnlyWithoutArgs | roberta/lab.py:222-240 | the cause is consulted only when there are no arguments; a falsy first argument is retried whatever the cause |
| Requests.Rewrite | roberta/lab.py:125-135 | only 404 and 405 are retried; a 404 is retried exactly when the URL has no `/rest/`, keeping the address; a 405 exactly when the URL is not `https://`, with `https` in front of both address and URL |
| Requests.Attempts | roberta/lab.py:117-135 | at most one request per answer; the first request goes to the URL it starts from, and every request has the same timeout and body; a result comes from the answer to the last attempt; running out of answers uses them all |
| Requests.AttemptsStep | roberta/lab.py:118-135 | one pass of the loop: a response is returned after one more request; an error that `Rewrite` does not retry is raised; a retried one continues from the rewritten address and URL |
| Requests.Request | roberta/lab.py:116-117 | the first request goes to `address/cmd`, and every request carries the given timeout and body |
| Requests.NotFoundThenResponse | roberta/lab.py:125-129 | a 404 on `address/cmd` followed by a response sends exactly `address/cmd` then `address/rest/cmd`, and leaves the address unchanged |
| Requests.FirstResponse | roberta/lab.py:117-124 | a response to the first attempt is returned after one request to `address/cmd`, with the address unchanged |
| Requests.RewriteProgress | roberta/lab.py:126-133 | from a web address, each rewrite keeps the URL at `address/cmd` or `address/rest/cmd`, uses up one of the pending rewrites, and changes the address only by upgrading `http` to `https` |
| Requests.SchemeOfUrl | roberta/lab.py:117-129 | a URL built from a web address has that address's scheme |
| Requests.AttemptsBounded | roberta/lab.py:116-135 | the attempts made are at most one more than the pending rewrites, so enough answers always settle the call; the address is at most upgraded |
| Requests.AtMostThreeAttempts | roberta/lab.py:116-135 | from an `http://` or `https://` address, `_request` makes at most three attempts, three answers always end it, and the address is either unchanged or upgraded to `https` |
| Requests.SecondNotFoundIsFatal | roberta/lab.py:126-135 | two 404s in a row end the call with that error after at most two attempts, the second to `address/rest/cmd` |
| Requests.HttpsStays | roberta/lab.py:126-133 | from an `https://` address and URL, the address is kept and every URL requested is `https://` |
| Requests.SchemeUpgrade | roberta/lab.py:130-133 | a 405 on an `http://` address upgrades the address for good; the retry URL is the first one with `https` in front, and every later attempt is `https://` |
| Requests.StalledForever | roberta/lab.py:130-133 | a URL that starts with `https` but not `https://` is rewritten again on each 405: if every answer were a 405, every answer would be consumed and the call would never return |
| Requests.UnboundedRewrites | roberta/lab.py:116-135 | from an address without `://` after its first four characters, the rewrite text retries every 405: if every answer were a 405, the call would never return |
| Protocol.Key | roberta/lab.py:152-162 | the JSON member name each field is written under: `cmd`, `battery`, `robot`, `firmwareversion`, `firmwarename`, `macaddr`, `token`, `nepoexitvalue` |
| Protocol.KeysDistinct | roberta/lab.py:152-162 | distinct fields are distinct JSON members, so a map keyed by fields is the dictionary sent |
| Poll.FirstAnswer | roberta/lab.py:53-59 | the inner probe loop yields nothing exactly when no interface of the kind answers, and otherwise the first one that does |
| Poll.MacAfter | roberta/lab.py:52-59 | after the first `n` kinds there is no MAC address exactly when none of them answered, and otherwise the address is one that some kind answered |
| Poll.LastKindWins | roberta/lab.py:52-59 | the MAC address sent comes from the last kind of interface that answered |
| Poll.LaterKindsSilent | roberta/lab.py:52-59 | when a kind answered and no later kind does, the MAC address after any number of kinds past it is that kind's answer |
| Poll.NoMacWithoutAnswer | roberta/lab.py:52-59 | no MAC address is sent exactly when no interface answered |
| Poll.Initial | roberta/lab.py:42-67 | a new connector is unregistered and running with no service; `params` holds exactly the firmware string, the token `generateToken` makes from the given bytes (8 symbols over the alphabet), and, exactly when some interface answered, the MAC address `Poll.MacAfter` gives for all the kinds |
| Poll.PollCommand | roberta/lab.py:151-155 | the `cmd` of a poll: `push` when registered, `register` otherwise |
| Poll.Timeout | roberta/lab.py:151-156 | the poll's timeout: 15 seconds when registered, 330 seconds otherwise |
| Poll.Prepare | roberta/lab.py:151-162 | the fields written at the top of every iteration: `cmd` is `push` when registered and `register` otherwise, `battery` 0, `robot` `turtlebot`, `firmwareversion` empty, `firmwarename` `ev3dev`; every other field and all of the session besides `params` are kept |
| Poll.PollSendsNoFirmware | roberta/lab.py:161-170 | every request of an iteration carries an empty `firmwareversion` |
| Poll.FirmwareNeverSent | roberta/lab.py:150-170 | every request of the whole loop carries an empty `firmwareversion`, so the firmware string read in `__init__` is never sent |
| Basics.Split | roberta/lab.py:198 | `hdr.split('=')` has at least one part and no part holds the separator |
| Basics.SplitJoin | roberta/lab.py:198 | joining the parts with the separator gives the text back, and there are two parts or more exactly when the separator occurs |
| Basics.SplitCount | roberta/lab.py:198 | `hdr.split('=')` has a second part, the one the name is taken from, exactly when the header holds an `=` |
| Basics.SplitPair | roberta/lab.py:198 | two separator-free fields around one separator split into exactly those two |
| Poll.ArtifactName | roberta/lab.py:196-198 | no or an empty header gives `unknown`; otherwise there is a name exactly when the header has an `=`, and that name has no `=` and follows an `=` in the header |
| Poll.NameBetweenSeparators | roberta/lab.py:198 | the name is exactly the text between the header's first `=` and its second `=` or end |
| Poll.NameFromHeader | roberta/lab.py:196-198 | the header `filename=prog.py` names the file `prog.py` |
| Poll.PathJoin | roberta/lab.py:198 | `os.path.join`: the path ends with the name; a relative name is placed under the home directory, as `home/name`, or as `home + name` when the home directory is empty or ends in `/`; an absolute name replaces the home directory |
| Poll.PollOnce | roberta/lab.py:150-251 | an iteration never clears `running` and never changes `home` or `service`, and never unregisters |
| Poll.Run | roberta/lab.py:150-252 | the loop never clears `running` or unregisters; it runs at most one iteration per exchange and has run at least one when it stopped |
| Poll.RunAdvance | roberta/lab.py:150-252 | the loop is one iteration followed by the loop from the new state, or ends with that iteration when it does not continue |
| Poll.Body | roberta/lab.py:170-213 | the body of the `try` never clears `running`, never changes `home` or `service`, and never unregisters |
| Poll.Dispatch | roberta/lab.py:175-213 | the command chain never clears `running`, never changes `home` or `service`, and never unregisters |
| Poll.Download | roberta/lab.py:190-202 | the download branch never changes `running`, `home`, `service` or the registration |
| Poll.FlowOf | roberta/lab.py:181-251 | the loop hangs exactly when a request is still waiting for answers; it stops exactly on a `break` or an exception that the handlers stop on |
| Poll.RequestsMatchRegistration | roberta/lab.py:151-195 | every request of an iteration, the download included, carries `push` and 15 seconds when registered and `register` and 330 seconds otherwise |
| Poll.IterationShape | roberta/lab.py:170-195 | an iteration sends the poll, then the download only when the poll was answered with `download`, and leaves the address the last request left |
| Poll.RepeatRegisters | roberta/lab.py:175-180 | `repeat` registers the device and the loop goes on; `params` is the prepared map with `nepoexitvalue` set to 0 and nothing else changed |
| Poll.AbortOutcomes | roberta/lab.py:181-189 | `abort` ends the loop when registered or with a falsy service; with a truthy service an unregistered device goes on with the prepared `params` in which only the token is replaced, by one drawn from the new bytes; with no service the failed lookup is swallowed and the loop goes on with `params` as prepared |
| Poll.OtherCommandsIdle | roberta/lab.py:203-213 | `update` and unknown commands change nothing beyond the fields every iteration writes |
| Poll.DownloadStoresAndReports | roberta/lab.py:190-202 | a download stores the patched program under the header's name in the home directory, owner-only; the program run is the patched text, and `params` becomes the prepared map with `nepoexitvalue` set to the exit code of that run and nothing else changed; a hard kill leaves `params` as prepared; either way the loop goes on |
| Poll.DownloadRuns | roberta/lab.py:195-202 | the same for the download branch alone, from the download's response: `params` changes only in `nepoexitvalue` |
| Poll.TokenRedrawnOnlyOnAbort | roberta/lab.py:151-213 | an iteration keeps the token unless its poll is answered `abort` while unregistered with a truthy service, and every request it sends carries the token it started with |
| Poll.DispatchKeepsToken | roberta/lab.py:175-213 | the command chain changes the token only in the truthy-service branch of `abort` |
| Poll.TokenSent | roberta/lab.py:151-195 | every request of an iteration, the download included, carries the token the iteration started with |
| Poll.TokenKept | roberta/lab.py:150-252 | without a truthy service the token never changes: every request of the whole loop, and the final state, carry the token the loop started with |
| Poll.InitialTokenSent | roberta/lab.py:61-62 | a fresh connector has no service attached, so every request of the loop sends the token `__init__` drew from its bytes |
| Poll.RequestFailureFlow | roberta/lab.py:214-251 | a failing poll ends the loop exactly when the handlers stop on that exception, and changes nothing but the prepared fields and possibly the address |
| Poll.PollOnceKeepsHttps | roberta/lab.py:170-195 | within one iteration an `https://` address is kept and every URL requested is `https://` |
| Poll.PollOnceAddress | roberta/lab.py:170-195 | from a web address, one iteration at most upgrades the scheme to `https` |
| Poll.RequestKeepsUpgrade | roberta/lab.py:130-133 | a request from the start address or its upgrade leaves one of the two |
| Poll.NothingAfterStop | roberta/lab.py:181-247 | after an iteration that leaves the loop, no exchange is consumed and no request is sent |
| Poll.RestForgotten | roberta/lab.py:117-135 | after an iteration whose poll went to `address/pushcmd`, drew a 404, was retried at `address/rest/pushcmd` and was answered `repeat`, the next iteration polls `address/pushcmd` again (after any iteration that goes on, `Poll.FirstPollUrl` puts the next poll at the session's address) |
| Poll.NotFoundOnce | roberta/lab.py:125-180 | an iteration whose poll draws a 404, then a response whose command is `repeat`, sends exactly those two requests, keeps the address and goes on |
| Poll.FirstPollUrl | roberta/lab.py:117-170 | every iteration's first request goes to `address/pushcmd` |
| Poll.HttpsPersists | roberta/lab.py:150-252 | once the address is `https://`, it stays so for the rest of the run and every later request uses it |
| Poll.DownloadReportedOnNextPoll | roberta/lab.py:150-202 | registering, downloading a program whose patched text sets `result` to 5, then polling again: three iterations; the first request registers with 330 seconds; the program is stored patched under the header's name; the third poll is a `push` that reports 5 |
| Poll.ScenarioRest | roberta/lab.py:190-202 | the download and report iterations of that scenario |
| Poll.ScenarioLast | roberta/lab.py:151-170 | the report iteration of that scenario |
| Poll.ScenarioRegister | roberta/lab.py:151-180 | a first poll answered with `repeat` sends one `register` request with 330 seconds and registers |
| Poll.ScenarioDownload | roberta/lab.py:190-202 | a `download` poll sends the poll and the download and records the exit value 5 |
| Poll.ScenarioReport | roberta/lab.py:151-170 | the poll after a download is a `push` carrying the recorded exit value |
| Lab.Connector.constructor | roberta/lab.py:42-67 | the fields are those of `Poll.Initial`, with the probe loops run in place |
| Lab.Connector.Request | roberta/lab.py:116-136 | the loop leaves `address` and returns the requests and the result that `Requests.Request` gives for the same answers |
| Lab.Connector.Download | roberta/lab.py:190-202 | the download branch leaves the fields and returns what `Poll.Download` gives |
| Lab.Connector.Body | roberta/lab.py:170-213 | the body of the `try` leaves the fields and returns what `Poll.Body` gives |
| Lab.Connector.PollOnce | roberta/lab.py:151-251 | one iteration leaves the fields and returns the requests, the artifact and the loop's next move that `Poll.PollOnce` gives |
| Lab.Connector.Run | roberta/lab.py:138-252 | `run` leaves the fields and returns the requests, artifacts, iteration count and last move of `Poll.Run` |

## Left out

- HTTP itself. `urlopen`, the request headers and the response object are
  replaced by a sequence of answers per request. The sequence is finite, and
  running out of it is the outcome `Exhausted`. That outcome shows up as the
  loop move `Hung`, which the source does not have: there, `_request` would
  still be waiting.
- JSON. The request body is a map from the eight fields the connector writes
  to text or integer values. A poll reply is given already decoded as a
  command, an object without `cmd`, or not JSON.
- Reading /proc/version, the home directory, and the `ioctl` MAC probe.
  These are constructor parameters: a string, a string, and the probe's
  answers per interface.
- `os.urandom`. Its eight bytes are a parameter of the token and of each
  iteration.
- Writing the program file and `os.chmod`. The artifact records path, text
  and mode; whether the write succeeds is a parameter of the exchange, and a
  failure is an `OSError`.
- `compile` and `exec`. How running a program text ends is a parameter of
  the exchange, a function from the text to its outcome; it is applied to
  the patched text that was stored. The value of `result` is any integer.
- A downloaded program is assumed to end and to touch only its own scope.
  In the source, `exec` runs in the connector's own thread with no time-out
  (lab.py:91-100). A program that never returns blocks the loop for good.
  A program that reaches the connector through `threading.current_thread()`
  can change its fields, for instance clear `running`, and one that ends the
  process ends the loop. None of these is modelled: the four run outcomes
  are finishing, `SystemExit`, `KeyboardInterrupt` and any other exception.
- `time.sleep`, `print`, logging, and the `threading.Thread` base class.
- Executor.ExecCode: the value of `result` is an integer here; a program
  that leaves some other object in `result` is not modelled. If that object
  cannot be encoded by `json.dumps`, every later `_request` raises
  `TypeError` at lab.py:122 before sending anything; the catch-all at
  lab.py:250 swallows it, and the loop spins without reaching the server.
- Answers are not tied to the URL they answer. urllib refuses a URL with an
  unknown scheme (such as `localhost:1999/pushcmd`, or the `httpss...` a
  405 rewrite makes of it) with a `URLError` before anything is sent. The
  model does not capture this, so `Requests.StalledForever` and
  `Requests.UnboundedRewrites` describe only what the rewrite text of
  lab.py:130-133 would do if every answer were a 405.
- Poll.ArtifactName: does not say by itself which `=` the name follows. The
  lemma `Poll.NameBetweenSeparators` pins it to the text between the first
  and second `=`.

=== FILE: basics.dfy ===
/** Small shared vocabulary: an option type, bytes, and the handful of Python
    string operations the connector relies on (`startswith`, `in`, slicing
    past the end, `split`). */
module Basics {

  datatype Option<+T> = None | Some(value: T)

  /** One element of a Python `bytes` object. */
  newtype byte = x: int | 0 <= x < 256

  /** Python's `s.startswith(p)`. */
  predicate StartsWith(s: string, p: string) {
    |p| <= |s| && s[..|p|] == p
  }

  /** Python's `p in s` for strings: `p` occurs somewhere in `s`. */
  predicate Contains(s: string, p: string)
    decreases |s|
  {
    StartsWith(s, p) || (|s| > 0 && Contains(s[1..], p))
  }

  /** Python's `s[n:]`, which is empty rather than an error when `n > len(s)`. */
  function Drop(s: string, n: nat): (r: string)
    ensures n <= |s| ==> s == s[..n] + r
    ensures n > |s| ==> r == []
  {
    if n <= |s| then s[n..] else []
  }

  /** Python's `s.split(sep)` for a one-character separator. */
  function Split(s: string, sep: char): (parts: seq<string>)
    ensures |parts| >= 1
    ensures forall p :: p in parts ==> sep !in p
    decreases |s|
  {
    if s == [] then [[]]
    else
      var rest := Split(s[1..], sep);
      if s[0] == sep then [[]] + rest
      else [[s[0]] + rest[0]] + rest[1..]
  }

  /** A string without the separator is a single field. */
  lemma {:induction false} SplitWhole(s: string, sep: char)
    requires sep !in s
    ensures Split(s, sep) == [s]
    decreases |s|
  {
    if s != [] {
      SplitWhole(s[1..], sep);
      assert [s[0]] + s[1..] == s;
    }
  }

  /** A separator-free prefix joins the first field of what follows. */
  lemma {:induction false} SplitAfterPrefix(a: string, rest: string, sep: char)
    requires sep !in a
    ensures var r := Split(rest, sep);
            Split(a + rest, sep) == [a + r[0]] + r[1..]
    decreases |a|
  {
    var r := Split(rest, sep);
    if a == [] {
      assert a + rest == rest && a + r[0] == r[0];
    } else {
      assert (a + rest)[0] == a[0] && a[0] in a;
      assert (a + rest)[1..] == a[1..] + rest;
      assert forall x :: x in a[1..] ==> x in a;
      SplitAfterPrefix(a[1..], rest, sep);
      assert [a[0]] + (a[1..] + r[0]) == a + r[0];
    }
  }

  /** Two separator-free fields around one separator. */
  lemma SplitPair(a: string, b: string, sep: char)
    requires sep !in a && sep !in b
    ensures Split(a + [sep] + b, sep) == [a, b]
  {
    SplitWhole(b, sep);
    assert ([sep] + b)[1..] == b;
    assert Split([sep] + b, sep) == [[], b];
    assert a + [sep] + b == a + ([sep] + b);
    SplitAfterPrefix(a, [sep] + b, sep);
    assert a + [] == a;
  }

  /** Python's `sep.join(parts)`: the inverse of `Split`. */
  function JoinWith(parts: seq<string>, sep: char): string
    requires |parts| >= 1
    decreases |parts|
  {
    if |parts| == 1 then parts[0] else parts[0] + [sep] + JoinWith(parts[1..], sep)
  }

  lemma {:induction false} SplitJoin(s: string, sep: char)
    ensures JoinWith(Split(s, sep), sep) == s
    ensures |Split(s, sep)| >= 2 <==> sep in s
    decreases |s|
  {
    SplitCount(s, sep);
    if s != [] {
      var rest := Split(s[1..], sep);
      SplitJoin(s[1..], sep);
      assert s == [s[0]] + s[1..];
      if s[0] == sep {
        assert ([[]] + rest)[1..] == rest;
      } else if |rest| > 1 {
        var parts := [[s[0]] + rest[0]] + rest[1..];
        assert parts[1..] == rest[1..];
        assert JoinWith(rest, sep) == rest[0] + [sep] + JoinWith(rest[1..], sep);
      }
    }
  }

  /** There are two parts or more exactly when the separator occurs. */
  lemma {:induction false} SplitCount(s: string, sep: char)
    ensures |Split(s, sep)| >= 2 <==> sep in s
    decreases |s|
  {
    if s != [] {
      SplitCount(s[1..], sep);
      assert s == [s[0]] + s[1..];
      assert sep in s <==> s[0] == sep || sep in s[1..];
    }
  }

  // ---- facts about StartsWith and Contains ----

  lemma StartsWithConcat(a: string, b: string, p: string)
    requires StartsWith(a, p)
    ensures StartsWith(a + b, p)
  {
    assert (a + b)[..|p|] == a[..|p|];
  }

  /** A prefix of `a + b` either is a prefix of `a` or has `a` as its prefix. */
  lemma StartsWithConcatCases(a: string, b: string, p: string)
    ensures StartsWith(a + b, p) ==> StartsWith(a, p) || StartsWith(p, a)
  {
    if StartsWith(a + b, p) {
      if |p| <= |a| {
        assert a[..|p|] == (a + b)[..|p|];
      } else {
        assert p[..|a|] == (a + b)[..|p|][..|a|];
      }
    }
  }

  lemma {:induction false} ContainsSuffix(s: string, k: nat, p: string)
    requires k <= |s|
    requires Contains(s[k..], p)
    ensures Contains(s, p)
    decreases k
  {
    if k > 0 {
      assert s[1..][k - 1..] == s[k..];
      ContainsSuffix(s[1..], k - 1, p);
    }
  }

  lemma {:induction false} ContainsInfix(a: string, p: string, b: string)
    ensures Contains(a + p + b, p)
    decreases |a|
  {
    if a == [] {
      assert (a + p + b)[..|p|] == p;
    } else {
      assert (a + p + b)[1..] == a[1..] + p + b;
      ContainsInfix(a[1..], p, b);
    }
  }

  /** `p` occurs in `s` at index `k`. */
  predicate OccursAt(s: string, p: string, k: nat) {
    k + |p| <= |s| && s[k..k + |p|] == p
  }

  /** `Contains` is Python's `in`: the pattern occurs at some index. */
  lemma {:induction false} ContainsAt(s: string, p: string)
    ensures Contains(s, p) <==> exists k: nat :: OccursAt(s, p, k)
    decreases |s|
  {
    if |s| > 0 {
      ContainsAt(s[1..], p);
      if Contains(s, p) {
        if StartsWith(s, p) {
          assert OccursAt(s, p, 0);
        } else {
          var k: nat :| OccursAt(s[1..], p, k);
          assert s[k + 1..k + 1 + |p|] == s[1..][k..k + |p|];
          assert OccursAt(s, p, k + 1);
        }
      }
      if exists k: nat :: OccursAt(s, p, k) {
        var k: nat :| OccursAt(s, p, k);
        if k > 0 {
          assert s[1..][k - 1..k - 1 + |p|] == s[k..k + |p|];
          assert OccursAt(s[1..], p, k - 1);
        }
      }
    } else if |p| == 0 {
      assert OccursAt(s, p, 0);
    }
  }

  /** A string shorter than the pattern cannot contain it. */
  lemma {:induction false} ContainsTooShort(s: string, p: string)
    requires |s| < |p|
    ensures !Contains(s, p)
    decreases |s|
  {
    if |s| > 0 {
      ContainsTooShort(s[1..], p);
    }
  }

  /** A string lacking one of the pattern's characters cannot contain it. */
  lemma {:induction false} ContainsMissingChar(s: string, p: string, c: char)
    requires c in p && c !in s
    ensures !Contains(s, p)
    decreases |s|
  {
    if |s| > 0 {
      assert forall x :: x in s[1..] ==> x in s;
      ContainsMissingChar(s[1..], p, c);
    }
  }

  /** Text in front that cannot start an occurrence changes nothing. */
  lemma {:induction false} ContainsAfterPrefix(h: string, t: string, p: string)
    requires |p| > 0 && p[0] !in h
    ensures Contains(h + t, p) <==> Contains(t, p)
    decreases |h|
  {
    if h == [] {
      assert h + t == t;
    } else {
      assert (h + t)[0] == h[0];
      assert !StartsWith(h + t, p);
      assert (h + t)[1..] == h[1..] + t;
      assert forall x :: x in h[1..] ==> x in h;
      ContainsAfterPrefix(h[1..], t, p);
    }
  }

  lemma PrefixCharInPattern(s: string, p: string, k: nat)
    requires StartsWith(s, p) && k < |p|
    ensures s[k] in p
  {
    assert s[k] == p[k];
  }

  /** An occurrence in `a + b` lies in `a`, lies in `b`, or covers the last
      character of `a`. */
  lemma {:induction false} ContainsConcat(a: string, b: string, p: string)
    requires |a| > 0 && |p| > 0 && a[|a| - 1] !in p
    requires Contains(a + b, p)
    ensures Contains(a, p) || Contains(b, p)
    decreases |a|
  {
    if StartsWith(a + b, p) {
      if |p| <= |a| {
        assert a[..|p|] == (a + b)[..|p|];
      } else {
        PrefixCharInPattern(a + b, p, |a| - 1);
      }
    } else {
      assert (a + b)[1..] == a[1..] + b;
      if |a| == 1 {
        assert a[1..] + b == b;
      } else {
        assert a[1..][|a[1..]| - 1] == a[|a| - 1];
        ContainsConcat(a[1..], b, p);
        if Contains(a[1..], p) {
          ContainsSuffix(a, 1, p);
        }
      }
    }
  }
}

=== FILE: executor.dfy ===
/** The executor half of the connector (roberta/lab.py, `_store_code` and
    `_exec_code`): the compatibility patches applied to downloaded program
    text, the artifact written to disk, and the mapping from how a run ended
    to the integer reported back to the server. Writing the file and running
    the interpreter are not modelled; a run is described by its outcome. */
module Executor {
  import opened Basics

  // ---- Python's str.replace ----

  /** `s.replace(pat, rep)`: every occurrence of `pat`, scanning left to right
      and without overlap, replaced by `rep`. */
  function Replace(s: string, pat: string, rep: string): (r: string)
    requires |pat| > 0
    ensures |rep| <= |pat| ==> |r| <= |s|
    ensures |rep| >= |pat| ==> |r| >= |s|
    decreases |s|
  {
    if s == [] then []
    else if StartsWith(s, pat) then rep + Replace(s[|pat|..], pat, rep)
    else [s[0]] + Replace(s[1..], pat, rep)
  }

  /** Text without the pattern comes back unchanged. */
  lemma {:induction false} ReplaceAbsent(s: string, pat: string, rep: string)
    requires |pat| > 0 && !Contains(s, pat)
    ensures Replace(s, pat, rep) == s
    decreases |s|
  {
    if s != [] {
      ReplaceAbsent(s[1..], pat, rep);
      assert s == [s[0]] + s[1..];
    }
  }

  /** If the replaced text starts with `q`, so did the original, provided the
      replacement's first character does not occur in `q`. */
  lemma {:induction false} ReplacePrefix(s: string, pat: string, rep: string, q: string)
    requires |pat| > 0 && |rep| > 0 && rep[0] !in q
    requires StartsWith(Replace(s, pat, rep), q)
    ensures StartsWith(s, q)
    decreases |s|
  {
    if q != [] && s != [] {
      if StartsWith(s, pat) {
        PrefixCharInPattern(Replace(s, pat, rep), q, 0);
      } else {
        var t := Replace(s[1..], pat, rep);
        assert Replace(s, pat, rep) == [s[0]] + t;
        assert t[..|q| - 1] == q[1..];
        assert forall x :: x in q[1..] ==> x in q;
        ReplacePrefix(s[1..], pat, rep, q[1..]);
        assert s[..|q|] == [s[0]] + s[1..][..|q| - 1];
      }
    }
  }

  /** A replacement that cannot re-create its own pattern: its first character
      is not in the tail of the pattern, the pattern's first character is not in
      its tail, and neither is a prefix of the other. */
  predicate SelfRetiring(pat: string, rep: string) {
    && |pat| > 0 && |rep| > 0
    && rep[0] !in pat[1..]
    && pat[0] !in rep[1..]
    && !StartsWith(rep, pat)
    && !StartsWith(pat, rep)
  }

  /** After a self-retiring replacement the pattern is gone. */
  lemma {:induction false} ReplaceRemoves(s: string, pat: string, rep: string)
    requires SelfRetiring(pat, rep)
    ensures !Contains(Replace(s, pat, rep), pat)
    decreases |s|
  {
    if s == [] {
      ContainsTooShort([], pat);
    } else if StartsWith(s, pat) {
      var t := Replace(s[|pat|..], pat, rep);
      ReplaceRemoves(s[|pat|..], pat, rep);
      StartsWithConcatCases(rep, t, pat);
      assert (rep + t)[1..] == rep[1..] + t;
      ContainsAfterPrefix(rep[1..], t, pat);
    } else {
      var t := Replace(s[1..], pat, rep);
      ReplaceRemoves(s[1..], pat, rep);
      assert ([s[0]] + t)[1..] == t;
      if StartsWith([s[0]] + t, pat) {
        assert t[..|pat| - 1] == pat[1..];
        ReplacePrefix(s[1..], pat, rep, pat[1..]);
      }
    }
  }

  /** A replacement whose text neither contains `q` nor can join with its
      surroundings to form `q` keeps `q` absent. */
  lemma {:induction false} ReplaceKeepsAbsent(s: string, pat: string, rep: string, q: string)
    requires |pat| > 0 && |rep| > 0 && |q| > 0
    requires rep[0] !in q && rep[|rep| - 1] !in q && !Contains(rep, q)
    requires !Contains(s, q)
    ensures !Contains(Replace(s, pat, rep), q)
    decreases |s|
  {
    if s == [] {
      ContainsTooShort([], q);
    } else if StartsWith(s, pat) {
      var t := Replace(s[|pat|..], pat, rep);
      if Contains(s[|pat|..], q) {
        ContainsSuffix(s, |pat|, q);
      }
      ReplaceKeepsAbsent(s[|pat|..], pat, rep, q);
      if Contains(rep + t, q) {
        ContainsConcat(rep, t, q);
      }
    } else {
      var t := Replace(s[1..], pat, rep);
      ReplaceKeepsAbsent(s[1..], pat, rep, q);
      assert ([s[0]] + t)[1..] == t;
      if StartsWith([s[0]] + t, q) {
        assert t[..|q| - 1] == q[1..];
        assert forall x :: x in q[1..] ==> x in q;
        ReplacePrefix(s[1..], pat, rep, q[1..]);
      }
    }
  }

  // ---- the three hot fixes of _store_code ----

  const FutureImport: string := "from __future__ import absolute_import\n"
  const XRangeLoop: string := "in xrange("
  const RangeLoop: string := "in range("
  const OldShebang: string := "#!/usr/bin/python\n"
  const NewShebang: string := "#!/usr/bin/python3\n"

  /** The text `_store_code` writes and returns: the Python 2 import line
      deleted, `xrange` loops turned into `range` loops, and the interpreter
      line pointed at python3, in that order. */
  function PatchCode(code: string): (patched: string)
    ensures !Contains(patched, XRangeLoop)
    ensures !Contains(patched, OldShebang)
  {
    var noFuture := Replace(code, FutureImport, "");
    var noXRange := Replace(noFuture, XRangeLoop, RangeLoop);
    XRangeFacts();
    ShebangFacts();
    assert NewShebang[0] !in XRangeLoop && NewShebang[|NewShebang| - 1] !in XRangeLoop;
    ShebangLacksXRange();
    ReplaceRemoves(noFuture, XRangeLoop, RangeLoop);
    ReplaceKeepsAbsent(noXRange, OldShebang, NewShebang, XRangeLoop);
    ReplaceRemoves(noXRange, OldShebang, NewShebang);
    Replace(noXRange, OldShebang, NewShebang)
  }

  /** The `xrange` patch cannot re-create its pattern; kept apart from
      `PatchCode` because the literal comparison is costly to prove there. */
  lemma XRangeFacts()
    ensures SelfRetiring(XRangeLoop, RangeLoop)
  {
    assert RangeLoop[3] != XRangeLoop[3];
  }

  /** The same for the interpreter-line patch. */
  lemma ShebangFacts()
    ensures SelfRetiring(OldShebang, NewShebang)
  {
    assert OldShebang[17] != NewShebang[17];
  }

  lemma ShebangLacksXRange()
    ensures !Contains(NewShebang, XRangeLoop)
  {
    assert ' ' in XRangeLoop && ' ' !in NewShebang;
    ContainsMissingChar(NewShebang, XRangeLoop, ' ');
  }

  /** What `FutureImportRespliced` needs of the import line: it starts with
      two different letters and neither later pattern can start inside it. */
  lemma FutureImportLetters()
    ensures FutureImport[0] == 'f' && FutureImport[1] == 'r'
    ensures 'x' !in FutureImport && '#' !in FutureImport
  {
  }

  /** Code carrying none of the three patterns is stored as it came. */
  lemma PatchCodeUnchanged(code: string)
    requires !Contains(code, FutureImport)
    requires !Contains(code, XRangeLoop)
    requires !Contains(code, OldShebang)
    ensures PatchCode(code) == code
  {
    ReplaceAbsent(code, FutureImport, "");
    ReplaceAbsent(code, XRangeLoop, RangeLoop);
    ReplaceAbsent(code, OldShebang, NewShebang);
  }

  /** Patching patched text again changes nothing, unless the deletion of the
      import line spliced a new copy of that line together. */
  lemma PatchCodeIdempotent(code: string)
    requires !Contains(PatchCode(code), FutureImport)
    ensures PatchCode(PatchCode(code)) == PatchCode(code)
  {
    PatchCodeUnchanged(PatchCode(code));
  }

  /** Deleting the import line can splice a new one together from the text
      around it, so patching is not idempotent in general. */
  lemma FutureImportRespliced()
    ensures var code := FutureImport[..1] + FutureImport + FutureImport[1..];
            PatchCode(code) == FutureImport
            && PatchCode(PatchCode(code)) != PatchCode(code)
  {
    FutureImportLetters();
    assert 'x' in XRangeLoop && '#' in OldShebang;
    ChainSplices(FutureImport, XRangeLoop, RangeLoop, 'x', OldShebang, NewShebang, '#');
  }

  /** The three replacements in a row, on the spliced text and on the line
      itself, when neither later pattern can occur in the line. */
  lemma ChainSplices(line: string, p2: string, r2: string, c2: char, p3: string, r3: string, c3: char)
    requires |line| >= 2 && line[0] != line[1]
    requires c2 in p2 && c2 !in line && c3 in p3 && c3 !in line
    ensures var code := line[..1] + line + line[1..];
            Replace(Replace(Replace(code, line, ""), p2, r2), p3, r3) == line
    ensures Replace(Replace(Replace(line, line, ""), p2, r2), p3, r3) == []
  {
    DeletionSplices(line);
    ContainsMissingChar(line, p2, c2);
    ReplaceAbsent(line, p2, r2);
    ContainsMissingChar(line, p3, c3);
    ReplaceAbsent(line, p3, r3);
    ReplaceAtMatch(line, [], "");
    assert line + [] == line;
  }

  /** Deleting the copy of `line` from the middle of
      `line[..1] + line + line[1..]` leaves `line` behind. */
  lemma DeletionSplices(line: string)
    requires |line| >= 2 && line[0] != line[1]
    ensures Replace(line[..1] + line + line[1..], line, "") == line
  {
    var head, tail := line[..1], line[1..];
    var code := head + line + tail;
    assert code[1..] == line + tail && code[0] == line[0];
    assert !StartsWith(code, line) by {
      assert code[1] == line[0];
    }
    assert Replace(code, line, "") == [code[0]] + Replace(line + tail, line, "");
    assert Replace(line + tail, line, "") == tail by {
      ReplaceAtMatch(line, tail, "");
      ContainsTooShort(tail, line);
      ReplaceAbsent(tail, line, "");
      assert "" + tail == tail;
    }
    assert [code[0]] + tail == line;
  }

  lemma ReplaceAtMatch(pat: string, rest: string, rep: string)
    requires |pat| > 0
    ensures Replace(pat + rest, pat, rep) == rep + Replace(rest, pat, rep)
  {
    assert (pat + rest)[..|pat|] == pat;
    assert (pat + rest)[|pat|..] == rest;
  }

  // ---- the artifact ----

  /** `stat.S_IRUSR | stat.S_IWUSR | stat.S_IXUSR`: read, write and execute
      for the owner only (octal 700). */
  const OwnerRwx: int := 256 + 128 + 64

  /** A downloaded program as `_store_code` leaves it on disk. */
  datatype Artifact = Artifact(path: string, text: string, mode: int)

  /** `_store_code`: the file written at `path`; its text is also what the
      caller goes on to execute. */
  function StoreCode(path: string, code: string): (a: Artifact)
    ensures a.path == path && a.mode == OwnerRwx
    ensures !Contains(a.text, XRangeLoop) && !Contains(a.text, OldShebang)
    ensures a.text == PatchCode(code)
  {
    Artifact(path, PatchCode(code), OwnerRwx)
  }

  // ---- running the stored program ----

  /** What became of the `result` variable of the fresh scope, which starts
      out bound to 0. */
  datatype Binding =
    | Untouched          // the program never assigned it
    | Assigned(value: int)
    | Deleted            // the program removed it, so reading it fails

  /** How compiling and executing the program ended. */
  datatype RunOutcome =
    | Finished(result: Binding)
    | SystemExitRaised         // the program called sys.exit (soft kill)
    | KeyboardInterruptRaised  // hard kill
    | ErrorRaised              // any other exception, including a syntax error

  /** What `_exec_code` does: return an exit code, or let the hard kill through. */
  datatype ExecResult = ExitCode(code: int) | Reraised

  const SeedResult: int := 0
  const SoftKillCode: int := 143
  const FailureCode: int := 1

  function ExecCode(run: RunOutcome): (r: ExecResult)
    ensures r.Reraised? <==> run.KeyboardInterruptRaised?
    ensures r.ExitCode? ==> r.code in {SeedResult, FailureCode, SoftKillCode}
                            || run == Finished(Assigned(r.code))
    ensures run.Finished? && run.result.Assigned? ==> r == ExitCode(run.result.value)
    ensures run == Finished(Untouched) ==> r == ExitCode(SeedResult)
    ensures run.SystemExitRaised? ==> r == ExitCode(SoftKillCode)
    ensures run.ErrorRaised? || run == Finished(Deleted) ==> r == ExitCode(FailureCode)
  {
    match run
    case Finished(Untouched) => ExitCode(SeedResult)
    case Finished(Assigned(v)) => ExitCode(v)
    case Finished(Deleted) => ExitCode(FailureCode)   // KeyError, caught by the bare except
    case SystemExitRaised => ExitCode(SoftKillCode)
    case KeyboardInterruptRaised => Reraised
    case ErrorRaised => ExitCode(FailureCode)
  }
}

=== FILE: failures.dfy ===
/** The exceptions that can end one iteration of the poll loop, and how the
    handlers at the end of `Connector.run` (roberta/lab.py) sort them into
    "leave the loop" and "poll again". */
module Failures {

  /** `socket.timeout`, `socket.gaierror`, `socket.herror`, and any other
      `OSError` (in Python 3 `socket.error` is `OSError`, so this covers
      connection refusals and failing file writes too). */
  datatype SocketKind = Timeout | AddressInfo | HostError | OtherOs

  /** The object a `URLError` wraps: `None`, a message string, an exception
      that is an `OSError`, or some other object with its truthiness. */
  datatype Reason =
    | NoReason
    | Message(text: string)
    | SocketException(kind: SocketKind)
    | OtherObject(truthy: bool)

  /** An exception raised inside the body of the poll loop. */
  datatype Failure =
    | HttpError(code: int)                          // urllib.error.HTTPError
    | UrlError(args: seq<Reason>, cause: Reason)    // urllib.error.URLError: e.args and e.__cause__
    | OsError(kind: SocketKind)                     // a bare socket error or other OSError
    | KeyboardInterrupt                             // re-raised by _exec_code
    | OtherException                                // AttributeError, KeyError, ValueError, ...

  /** Python truthiness of a reason. Exception objects are always true. */
  predicate Truthy(r: Reason) {
    match r
    case NoReason => false
    case Message(t) => |t| > 0
    case SocketException(_) => true
    case OtherObject(t) => t
  }

  /** `nested_e`: the first argument if there is one, otherwise the cause if
      it is truthy, otherwise `None`. */
  function Nested(args: seq<Reason>, cause: Reason): (nested: Reason)
    ensures |args| > 0 ==> nested == args[0]
    ensures |args| == 0 ==> (Truthy(nested) <==> Truthy(cause))
    ensures |args| == 0 && Truthy(cause) ==> nested == cause
  {
    if |args| > 0 then args[0]
    else if Truthy(cause) then cause
    else NoReason
  }

  /** The `retry` flag computed for a `URLError`: a falsy nested reason is
      retried, a truthy one only when it is a socket error. */
  function Retry(args: seq<Reason>, cause: Reason): (retry: bool)
    ensures |args| > 0 ==> (retry <==> !Truthy(args[0]) || args[0].SocketException?)
    ensures |args| == 0 ==> (retry <==> !Truthy(cause) || cause.SocketException?)
  {
    var nested := Nested(args, cause);
    !Truthy(nested) || nested.SocketException?
  }

  /** Whether the exception makes `run` leave its loop (the `break`s of the
      `HTTPError` handler and of the non-retried `URLError`); every other
      exception is swallowed and the loop polls again. */
  function Stops(f: Failure): (stop: bool)
    ensures f.HttpError? ==> stop
    ensures f.OsError? || f.KeyboardInterrupt? || f.OtherException? ==> !stop
    ensures stop <==> f.HttpError? || (f.UrlError? && !Retry(f.args, f.cause))
  {
    match f
    case HttpError(_) => true
    case UrlError(args, cause) => !Retry(args, cause)
    case OsError(_) => false
    case KeyboardInterrupt => false
    case OtherException => false
  }

  /** Transport failures, bare or wrapped in a `URLError` (as its argument or,
      with no arguments, as its cause), never end the loop. */
  lemma TransportFailuresContinue(k: SocketKind, rest: seq<Reason>, cause: Reason)
    ensures !Stops(OsError(k))
    ensures !Stops(UrlError([SocketException(k)] + rest, cause))
    ensures !Stops(UrlError([], SocketException(k)))
  {
  }

  /** A `URLError` as urllib builds it, whose `args` is just `(reason,)`, ends
      the loop exactly when the reason is truthy and not a socket error. */
  lemma UrlErrorStops(reason: Reason, cause: Reason)
    ensures Stops(UrlError([reason], cause)) <==> Truthy(reason) && !reason.SocketException?
  {
  }

  /** The cause is consulted only when there are no arguments, and a falsy
      first argument hides a truthy cause. */
  lemma CauseOnlyWithoutArgs(first: Reason, rest: seq<Reason>, cause: Reason)
    requires !Truthy(first)
    ensures !Stops(UrlError([first] + rest, cause))
    ensures Stops(UrlError([], cause)) <==> Truthy(cause) && !cause.SocketException?
  {
  }
}

=== FILE: lab.dfy ===
/** `Connector` (roberta/lab.py), the network thread of the robot: its fields
    are updated in place by `_request` and by the poll loop of `run`. Each
    method is proved to leave the object in the state, and to return what,
    the functions of modules Requests and Poll say. */
module Lab {
  import opened Basics
  import opened Token
  import opened Executor
  import opened Failures
  import opened Protocol
  import Requests
  import opened Poll

  class Connector {
    var address: string
    var home: string
    var params: Payload
    var registered: bool
    var running: bool
    var service: Service

    /** The fields as a value. */
    function State(): Session
      reads this
    {
      Session(address, home, params, registered, running, service)
    }

    /** `__init__`, with the contents of /proc/version, the home directory,
        the answers of `getHwAddr` and the bytes of `os.urandom` as
        parameters. */
    constructor (address: string, home: string, firmware: string, probe: Probe, entropy: Entropy)
      ensures State() == Initial(address, home, firmware, probe, entropy)
    {
      var p: Payload := map[];
      p := p[FirmwareVersion := Text(firmware)];
      var mac: Option<string> := None;
      var i := 0;
      while i < |probe|
        invariant 0 <= i <= |probe|
        invariant mac == MacAfter(probe, i)
        invariant p == Probed(firmware, mac)
      {
        var ix := 0;
        while ix < |probe[i]|
          invariant 0 <= ix <= |probe[i]|
          invariant FirstAnswer(probe[i]) == FirstAnswer(probe[i][ix..])
          invariant mac == MacAfter(probe, i)
        {
          if probe[i][ix].Some? {
            mac := probe[i][ix];
            p := p[MacAddr := Text(mac.value)];
            assert mac == MacAfter(probe, i + 1);
            break;
          }
          assert probe[i][ix..][1..] == probe[i][ix + 1..];
          ix := ix + 1;
        }
        i := i + 1;
      }
      if TokenPerSession {
        p := p[SessionToken := Text(GenerateToken(entropy))];
      }
      this.address := address;
      this.home := home;
      params := p;
      registered := false;
      running := true;
      service := Unset;
    }

    /** `_request(cmd, headers, timeout)`: one attempt per answer until a
        response, an error that is not rewritten, or the end of the answers. */
    method Request(cmd: string, timeout: int, answers: seq<Answer>)
      returns (sent: seq<Sent>, result: Requests.Result)
      modifies this`address
      ensures Requests.Request(old(address), cmd, timeout, params, answers)
                == Requests.Outcome(address, sent, result)
    {
      var url := address + "/" + cmd;
      sent := [];
      var i := 0;
      while true
        invariant 0 <= i <= |answers|
        invariant Requests.Request(old(address), cmd, timeout, params, answers)
                    == Requests.After(sent, Requests.Attempts(address, url, cmd, timeout, params, answers[i..]))
        decreases |answers| - i
      {
        if i == |answers| {
          assert sent + [] == sent;
          result := Requests.Exhausted;
          return;
        }
        Requests.AttemptsStep(address, url, cmd, timeout, params, answers, i, sent);
        sent := sent + [Sent(url, timeout, params)];
        var answer := answers[i];
        i := i + 1;
        match answer
        case Respond(r) =>
          result := Requests.Returned(r);
          return;
        case Raise(f) =>
          ghost var next := if f.HttpError? then Requests.Rewrite(address, url, cmd, f.code) else None;
          if f.HttpError? && f.code == 404 && !Contains(url, Requests.RestSegment) {
            url := address + Requests.RestSegment + cmd;
            assert next == Some((address, url));
          } else if f.HttpError? && f.code == 405 && !StartsWith(url, Requests.Https) {
            address := "https" + Drop(address, 4);
            url := "https" + Drop(url, 4);
            assert next == Some((address, url));
          } else {
            assert next.None?;
            result := Requests.Raised(f);
            return;
          }
      }
    }

    /** The `download` branch of `run`. */
    method Download(timeout: int, ex: Exchange) returns (exit: Exit, sent: seq<Sent>, artifact: Option<Artifact>)
      modifies this`address, this`params
      ensures var it := Poll.Download(old(State()), timeout, ex);
              State() == it.session && sent == it.sent && artifact == it.artifact && exit == it.exit
    {
      var result;
      sent, result := Request("download", timeout, ex.download);
      artifact := None;
      match result
      case Exhausted =>
        exit := Stuck;
      case Raised(f) =>
        exit := Threw(f);
      case Returned(r) =>
        var name := ArtifactName(r.disposition);
        if name.None? {
          exit := Threw(OtherException);
        } else if r.text.None? {
          exit := Threw(OtherException);
        } else if !ex.writable {
          exit := Threw(OsError(OtherOs));
        } else {
          var a := StoreCode(PathJoin(home, name.value), r.text.value);
          artifact := Some(a);
          match ExecCode(ex.run(a.text))
          case Reraised =>
            exit := Threw(KeyboardInterrupt);
          case ExitCode(n) =>
            params := params[NepoExitValue := Number(n)];
            exit := Normal;
        }
    }

    /** The body of the `try` in `run`. */
    method Body(timeout: int, ex: Exchange) returns (exit: Exit, sent: seq<Sent>, artifact: Option<Artifact>)
      modifies this
      ensures var it := Poll.Body(old(State()), timeout, ex);
              State() == it.session && sent == it.sent && artifact == it.artifact && exit == it.exit
    {
      var result;
      sent, result := Request("pushcmd", timeout, ex.push);
      artifact := None;
      match result
      case Exhausted =>
        exit := Stuck;
      case Raised(f) =>
        exit := Threw(f);
      case Returned(_) =>
        match ex.reply
        case NotJson =>
          exit := Threw(OtherException);
        case NoCommand =>
          exit := Threw(OtherException);
        case Command(cmd) =>
          if cmd == "repeat" {
            registered := true;
            params := params[NepoExitValue := Number(0)];
            exit := Normal;
          } else if cmd == "abort" {
            if registered {
              exit := Break;
            } else if service.Unset? {
              exit := Threw(OtherException);
            } else if service.truthy {
              params := params[SessionToken := Text(GenerateToken(ex.entropy))];
              exit := Normal;
            } else {
              exit := Break;
            }
          } else if cmd == "download" {
            var more;
            exit, more, artifact := Download(timeout, ex);
            sent := sent + more;
          } else {
            exit := Normal;
          }
    }

    /** One iteration of `while self.running`: the fields written first, the
        `try` body, then the handlers. */
    method PollOnce(ex: Exchange) returns (flow: Flow, sent: seq<Sent>, artifact: Option<Artifact>)
      modifies this
      ensures var it := Poll.PollOnce(old(State()), ex);
              State() == it.session && sent == it.sent && artifact == it.artifact
              && flow == FlowOf(it.exit)
    {
      var timeout;
      if registered {
        params := params[Cmd := Text("push")];
        timeout := 15;
      } else {
        params := params[Cmd := Text("register")];
        timeout := 330;
      }
      params := params[Battery := Number(0)];
      params := params[Robot := Text("turtlebot")];
      params := params[FirmwareVersion := Text("")];
      params := params[FirmwareName := Text("ev3dev")];
      var exit;
      exit, sent, artifact := Body(timeout, ex);
      match exit
      case Normal =>
        flow := Continue;
      case Break =>
        flow := Stop;
      case Threw(f) =>
        flow := if Stops(f) then Stop else Continue;
      case Stuck =>
        flow := Hung;
    }

    /** `run`: poll while `running`, one exchange per iteration, until an
        iteration leaves the loop or the exchanges run out. */
    method Run(exchanges: seq<Exchange>)
      returns (sent: seq<Sent>, artifacts: seq<Artifact>, cycles: nat, last: Flow)
      modifies this
      ensures Poll.Run(old(State()), exchanges) == Trace(State(), sent, artifacts, cycles, last)
    {
      sent, artifacts, cycles, last := [], [], 0, Continue;
      ghost var whole := Poll.Run(State(), exchanges);
      assert [] + whole.sent == whole.sent && [] + whole.artifacts == whole.artifacts;
      var i := 0;
      while running && i < |exchanges|
        invariant 0 <= i <= |exchanges| && cycles == i
        invariant whole == Joined(sent, artifacts, cycles, Poll.Run(State(), exchanges[i..]))
        decreases |exchanges| - i
      {
        RunAdvance(State(), exchanges[i..], sent, artifacts, cycles);
        var flow, more, artifact := PollOnce(exchanges[i]);
        sent := sent + more;
        artifacts := artifacts + if artifact.Some? then [artifact.value] else [];
        cycles := cycles + 1;
        i := i + 1;
        if flow != Continue {
          last := flow;
          return;
        }
      }
      assert sent + [] == sent && artifacts + [] == artifacts;
    }
  }
}

=== FILE: poll.dfy ===
/** The session state of `Connector` (roberta/lab.py) and one iteration of
    its poll loop as a function of what the server and the downloaded program
    do; then the loop itself, which runs iterations until one leaves it. The
    class in module Lab runs the same steps imperatively and is proved to
    agree with these functions. */
module Poll {
  import opened Basics
  import opened Token
  import opened Executor
  import opened Failures
  import opened Protocol
  import Requests

  /** `TOKEN_PER_SESSION`. */
  const TokenPerSession: bool := true

  const PushTimeout: int := 15
  const RegisterTimeout: int := 330
  const DefaultName: string := "unknown"

  /** `self.service`: never assigned by the connector itself, so reading it
      fails unless someone else attached one. */
  datatype Service = Unset | Attached(truthy: bool)

  /** The fields of the connector thread: `address`, `home`, `params`,
      `registered`, `running` and `service`. */
  datatype Session = Session(address: string, home: string, params: Payload,
                             registered: bool, running: bool, service: Service)

  /** Everything from outside that one iteration consumes: the answers to the
      attempts of the `pushcmd` request, what its body decodes to, the
      answers to the `download` request, whether the program file can be
      written, how running a program text ends, and the random bytes for a
      new token. */
  datatype Exchange = Exchange(push: seq<Answer>, reply: Reply, download: seq<Answer>,
                               writable: bool, run: string -> RunOutcome, entropy: Entropy)

  /** How the body of the `try` ended: normally, by `break`, by an exception,
      or still inside `_request` when the answers ran out. */
  datatype Exit = Normal | Break | Threw(failure: Failure) | Stuck

  /** What the loop does next. */
  datatype Flow = Continue | Stop | Hung

  datatype Iteration = Iteration(session: Session, sent: seq<Sent>, artifact: Option<Artifact>, exit: Exit)

  /** What `getHwAddr` gives for each interface name tried by `__init__`:
      `probe[i][ix]` is the MAC address of interface `ix` of kind `i` (`wlan`,
      `usb`, `eth` in that order, ten each), `None` when the call fails. */
  type Probe = seq<seq<Option<string>>>

  /** The inner loop: the first interface of one kind that answers. */
  function FirstAnswer(tries: seq<Option<string>>): (r: Option<string>)
    ensures r.None? <==> forall k :: 0 <= k < |tries| ==> tries[k].None?
    ensures r.Some? ==> exists k :: 0 <= k < |tries| && tries[k] == r
                                    && forall j :: 0 <= j < k ==> tries[j].None?
  {
    if tries == [] then None
    else if tries[0].Some? then tries[0]
    else
      var r := FirstAnswer(tries[1..]);
      assert forall k :: 1 <= k < |tries| ==> tries[k] == tries[1..][k - 1];
      r
  }

  /** No interface of kinds `lo` to `hi - 1` answered. */
  predicate Silent(probe: Probe, lo: nat, hi: nat)
    requires hi <= |probe|
  {
    forall j :: lo <= j < hi ==> FirstAnswer(probe[j]).None?
  }

  /** What each of the first `n` kinds answered first. */
  function FirstAnswers(probe: Probe, n: nat): set<Option<string>>
    requires n <= |probe|
  {
    set i | 0 <= i < n :: FirstAnswer(probe[i])
  }

  /** `params['macaddr']` after the first `n` kinds: the `break` leaves only
      the inner loop, so a later kind that answers overwrites an earlier one. */
  function MacAfter(probe: Probe, n: nat): (mac: Option<string>)
    requires n <= |probe|
    ensures mac.None? <==> Silent(probe, 0, n)
    ensures mac.Some? ==> mac in FirstAnswers(probe, n)
  {
    if n == 0 then None
    else if FirstAnswer(probe[n - 1]).Some? then FirstAnswer(probe[n - 1])
    else MacAfter(probe, n - 1)
  }

  /** The MAC address sent comes from the last kind of interface that
      answered, not the first. */
  lemma {:induction false} LastKindWins(probe: Probe, i: nat)
    requires i < |probe| && FirstAnswer(probe[i]).Some?
    requires forall j :: i < j < |probe| ==> FirstAnswer(probe[j]).None?
    ensures MacAfter(probe, |probe|) == FirstAnswer(probe[i])
    decreases |probe| - i
  {
    LaterKindsSilent(probe, i, |probe|);
  }

  lemma {:induction false} LaterKindsSilent(probe: Probe, i: nat, n: nat)
    requires i < n <= |probe| && FirstAnswer(probe[i]).Some?
    requires forall j :: i < j < |probe| ==> FirstAnswer(probe[j]).None?
    ensures MacAfter(probe, n) == FirstAnswer(probe[i])
    decreases n
  {
    if n - 1 > i {
      LaterKindsSilent(probe, i, n - 1);
    }
  }

  /** No MAC address is sent exactly when no interface answered. */
  lemma {:induction false} NoMacWithoutAnswer(probe: Probe, n: nat)
    requires n <= |probe|
    ensures MacAfter(probe, n).None? <==>
              forall i, ix :: 0 <= i < n && 0 <= ix < |probe[i]| ==> probe[i][ix].None?
  {
    if n > 0 {
      NoMacWithoutAnswer(probe, n - 1);
    }
  }

  /** The parameters `__init__` has set once the interfaces are probed. */
  function Probed(firmware: string, mac: Option<string>): Payload {
    var withVersion := map[FirmwareVersion := Text(firmware)];
    if mac.Some? then withVersion[MacAddr := Text(mac.value)] else withVersion
  }

  /** `__init__`: the firmware string read from /proc/version, the MAC
      address of the interface probe, and a fresh token. */
  function Initial(address: string, home: string, firmware: string, probe: Probe,
                   entropy: Entropy): (s: Session)
    ensures s.address == address && s.home == home
    ensures !s.registered && s.running && s.service == Unset
    ensures Has(s.params, FirmwareVersion, Text(firmware))
    ensures MacAddr in s.params <==> MacAfter(probe, |probe|).Some?
    ensures MacAddr in s.params ==> s.params[MacAddr] == Text(MacAfter(probe, |probe|).value)
    ensures s.params.Keys == {FirmwareVersion, SessionToken} + (if MacAddr in s.params then {MacAddr} else {})
    ensures s.params[SessionToken] == Text(GenerateToken(entropy))
    ensures forall c :: c in s.params[SessionToken].s ==> c in Alphabet && c !in Ambiguous
  {
    var withMac := Probed(firmware, MacAfter(probe, |probe|));
    var params := if TokenPerSession then withMac[SessionToken := Text(GenerateToken(entropy))] else withMac;
    Session(address, home, params, false, true, Unset)
  }

  function PollCommand(registered: bool): string {
    if registered then "push" else "register"
  }

  function Timeout(registered: bool): int {
    if registered then PushTimeout else RegisterTimeout
  }

  /** The fields of `params` written at the top of every iteration. */
  const PreparedFields: set<Field> := {Cmd, Battery, Robot, FirmwareVersion, FirmwareName}

  /** The fields written at the top of every iteration: the poll command for
      the registration state, a zero battery, the robot kind, an empty
      firmware version and the firmware name; nothing else changes. */
  function Prepare(s: Session): (p: Session)
    ensures p == s.(params := p.params)
    ensures Has(p.params, Cmd, Text(if s.registered then "push" else "register"))
    ensures Has(p.params, Battery, Number(0)) && Has(p.params, Robot, Text("turtlebot"))
    ensures Has(p.params, FirmwareVersion, Text("")) && Has(p.params, FirmwareName, Text("ev3dev"))
    ensures p.params.Keys == s.params.Keys + PreparedFields
    ensures forall k :: k in s.params && k !in PreparedFields ==> p.params[k] == s.params[k]
  {
    s.(params := s.params[Cmd := Text(PollCommand(s.registered))]
                         [Battery := Number(0)]
                         [Robot := Text("turtlebot")]
                         [FirmwareVersion := Text("")]
                         [FirmwareName := Text("ev3dev")])
  }

  /** The string read from /proc/version is never sent: the field is emptied
      before the first request of every iteration. */
  lemma PollSendsNoFirmware(s: Session, ex: Exchange)
    ensures forall q :: q in PollOnce(s, ex).sent ==> Carries(q, FirmwareVersion, Text(""))
  {
    IterationShape(s, ex);
  }

  /** No request of the whole loop carries the firmware string. */
  lemma {:induction false} FirmwareNeverSent(s: Session, exchanges: seq<Exchange>)
    ensures forall q :: q in Run(s, exchanges).sent ==> Carries(q, FirmwareVersion, Text(""))
    decreases |exchanges|
  {
    if s.running && exchanges != [] {
      var it := PollOnce(s, exchanges[0]);
      PollSendsNoFirmware(s, exchanges[0]);
      if FlowOf(it.exit) == Continue {
        FirmwareNeverSent(it.session, exchanges[1..]);
      }
    }
  }

  /** The session token changes only on an `abort` that reaches the truthy
      service of an unregistered device; every request of the iteration
      carries the token the iteration started with. */
  lemma TokenRedrawnOnlyOnAbort(s: Session, ex: Exchange)
    requires SessionToken in s.params
    ensures var it := PollOnce(s, ex);
            && SessionToken in it.session.params
            && (it.session.params[SessionToken] != s.params[SessionToken] ==>
                  ex.reply == Command("abort") && !s.registered && s.service == Attached(true))
            && forall q :: q in it.sent ==> Carries(q, SessionToken, s.params[SessionToken])
  {
    var p, timeout := Prepare(s), Timeout(s.registered);
    var o := Requests.Request(p.address, "pushcmd", timeout, p.params, ex.push);
    BodyShape(p, timeout, ex);
    assert PollOnce(s, ex) == Body(p, timeout, ex);
    if o.result.Returned? && ex.reply.Command? {
      DispatchKeepsToken(p.(address := o.address), ex.reply.cmd, timeout, ex, o.sent);
    }
    TokenSent(s, ex);
  }

  /** The command chain changes the token only on the truthy-service abort. */
  lemma DispatchKeepsToken(s: Session, cmd: string, timeout: int, ex: Exchange, sent: seq<Sent>)
    requires SessionToken in s.params
    ensures var it := Dispatch(s, cmd, timeout, ex, sent);
            && SessionToken in it.session.params
            && (it.session.params[SessionToken] != s.params[SessionToken] ==>
                  cmd == "abort" && !s.registered && s.service == Attached(true))
  {
    if cmd == "download" {
      var d := Download(s, timeout, ex);
      assert Dispatch(s, cmd, timeout, ex, sent).session == d.session;
    }
  }

  /** Every request of an iteration carries the token it started with. */
  lemma TokenSent(s: Session, ex: Exchange)
    requires SessionToken in s.params
    ensures forall q :: q in PollOnce(s, ex).sent ==> Carries(q, SessionToken, s.params[SessionToken])
  {
    IterationShape(s, ex);
  }

  /** Without a truthy service the token never changes: every request of the
      whole loop carries the token `__init__` drew, and so does the final
      state. */
  lemma {:induction false} TokenKept(s: Session, exchanges: seq<Exchange>)
    requires SessionToken in s.params && s.service != Attached(true)
    ensures var t := Run(s, exchanges);
            && Has(t.session.params, SessionToken, s.params[SessionToken])
            && forall q :: q in t.sent ==> Carries(q, SessionToken, s.params[SessionToken])
    decreases |exchanges|
  {
    if s.running && |exchanges| > 0 {
      var it := PollOnce(s, exchanges[0]);
      TokenRedrawnOnlyOnAbort(s, exchanges[0]);
      if FlowOf(it.exit) == Continue {
        TokenKept(it.session, exchanges[1..]);
      }
    }
  }

  /** A fresh connector has no service attached, so the token `__init__`
      draws from its bytes is the one every request of the loop sends. */
  lemma InitialTokenSent(address: string, home: string, firmware: string, probe: Probe,
                         entropy: Entropy, exchanges: seq<Exchange>)
    ensures var s := Initial(address, home, firmware, probe, entropy);
            forall q :: q in Run(s, exchanges).sent ==> Carries(q, SessionToken, Text(GenerateToken(entropy)))
  {
    TokenKept(Initial(address, home, firmware, probe, entropy), exchanges);
  }

  /** `hdr.split('=')[1] if hdr else 'unknown'`: `None` when the header has
      no `=`, which raises `IndexError`. */
  function ArtifactName(disposition: Option<string>): (name: Option<string>)
    ensures disposition.None? || disposition == Some([]) ==> name == Some(DefaultName)
    ensures disposition.Some? && disposition.value != [] ==>
              (name.Some? <==> '=' in disposition.value)
    ensures disposition.Some? && disposition.value != [] && name.Some? ==>
              '=' !in name.value && Contains(disposition.value, "=" + name.value)
  {
    if disposition.None? || disposition.value == [] then Some(DefaultName)
    else
      var parts := Split(disposition.value, '=');
      SplitJoin(disposition.value, '=');
      if |parts| >= 2 then
        SecondFieldFollowsSeparator(parts, '=');
        Some(parts[1])
      else None
  }

  /** In `sep.join(parts)`, the second part follows a separator. */
  lemma SecondFieldFollowsSeparator(parts: seq<string>, sep: char)
    requires |parts| >= 2
    ensures Contains(JoinWith(parts, sep), [sep] + parts[1])
  {
    var rest := JoinWith(parts[1..], sep);
    if |parts| == 2 {
      assert rest == parts[1];
    } else {
      assert rest == parts[1] + [sep] + JoinWith(parts[2..], sep);
    }
    assert JoinWith(parts, sep) == parts[0] + ([sep] + parts[1]) + rest[|parts[1]|..];
    ContainsInfix(parts[0], [sep] + parts[1], rest[|parts[1]|..]);
  }

  /** What `os.path.join` puts between a directory and a relative name: a
      `/`, unless the directory is empty or already ends in one. */
  function Separator(home: string): (sep: string)
    ensures sep == "/" <==> home != [] && home[|home| - 1] != '/'
    ensures sep == "" <==> home == [] || home[|home| - 1] == '/'
  {
    if home == [] || home[|home| - 1] == '/' then "" else "/"
  }

  /** `os.path.join(home, name)`: a relative name goes under the home
      directory, with one `/` between them unless the home directory is empty
      or already ends in `/`; an absolute name replaces the home directory. */
  function PathJoin(home: string, name: string): (path: string)
    ensures |name| <= |path| && path[|path| - |name|..] == name
    ensures !StartsWith(name, "/") ==> StartsWith(path, home)
    ensures !StartsWith(name, "/") ==> path == home + Separator(home) + name
    ensures StartsWith(name, "/") ==> path == name
  {
    if StartsWith(name, "/") then name
    else if home == [] || home[|home| - 1] == '/' then home + name
    else home + "/" + name
  }

  /** One pass through the body of `while self.running`. */
  function PollOnce(s: Session, ex: Exchange): (it: Iteration)
    ensures it.session.running == s.running && it.session.home == s.home
    ensures it.session.service == s.service
    ensures s.registered ==> it.session.registered
  {
    Body(Prepare(s), Timeout(s.registered), ex)
  }

  /** The body of the `try`: poll, decode the reply and act on its command. */
  function Body(s: Session, timeout: int, ex: Exchange): (it: Iteration)
    ensures it.session.running == s.running && it.session.home == s.home
    ensures it.session.service == s.service
    ensures s.registered ==> it.session.registered
  {
    var o := Requests.Request(s.address, "pushcmd", timeout, s.params, ex.push);
    var s' := s.(address := o.address);
    match o.result
    case Exhausted => Iteration(s', o.sent, None, Stuck)
    case Raised(f) => Iteration(s', o.sent, None, Threw(f))
    case Returned(_) =>
      match ex.reply
      case NotJson => Iteration(s', o.sent, None, Threw(OtherException))     // ValueError
      case NoCommand => Iteration(s', o.sent, None, Threw(OtherException))   // KeyError
      case Command(cmd) => Dispatch(s', cmd, timeout, ex, o.sent)
  }

  /** The `if cmd == ...` chain, after the requests in `sent`. */
  function Dispatch(s: Session, cmd: string, timeout: int, ex: Exchange, sent: seq<Sent>): (it: Iteration)
    ensures it.session.running == s.running && it.session.home == s.home
    ensures it.session.service == s.service
    ensures s.registered ==> it.session.registered
  {
    if cmd == "repeat" then
      Iteration(s.(registered := true, params := s.params[NepoExitValue := Number(0)]), sent, None, Normal)
    else if cmd == "abort" then
      if s.registered then Iteration(s, sent, None, Break)
      else
        match s.service
        case Unset => Iteration(s, sent, None, Threw(OtherException))     // AttributeError
        case Attached(truthy) =>
          if truthy then
            Iteration(s.(params := s.params[SessionToken := Text(GenerateToken(ex.entropy))]), sent, None, Normal)
          else Iteration(s, sent, None, Break)
    else if cmd == "download" then
      var it := Download(s, timeout, ex);
      it.(sent := sent + it.sent)
    else
      // `update` is not implemented and any other command is only logged
      Iteration(s, sent, None, Normal)
  }

  /** The `download` branch: fetch, name, store and run the program. */
  function Download(s: Session, timeout: int, ex: Exchange): (it: Iteration)
    ensures it.session.running == s.running && it.session.home == s.home
    ensures it.session.service == s.service && it.session.registered == s.registered
  {
    var o := Requests.Request(s.address, "download", timeout, s.params, ex.download);
    var s' := s.(address := o.address);
    match o.result
    case Exhausted => Iteration(s', o.sent, None, Stuck)
    case Raised(f) => Iteration(s', o.sent, None, Threw(f))
    case Returned(r) =>
      match ArtifactName(r.disposition)
      case None => Iteration(s', o.sent, None, Threw(OtherException))         // IndexError
      case Some(name) =>
        match r.text
        case None => Iteration(s', o.sent, None, Threw(OtherException))       // UnicodeDecodeError
        case Some(code) =>
          if !ex.writable then Iteration(s', o.sent, None, Threw(OsError(OtherOs)))
          else
            var a := StoreCode(PathJoin(s.home, name), code);
            match ExecCode(ex.run(a.text))
            case Reraised => Iteration(s', o.sent, Some(a), Threw(KeyboardInterrupt))
            case ExitCode(n) =>
              Iteration(s'.(params := s'.params[NepoExitValue := Number(n)]), o.sent, Some(a), Normal)
  }

  /** The `break`s and the exception handlers after the `try`. */
  function FlowOf(exit: Exit): (flow: Flow)
    ensures flow == Hung <==> exit.Stuck?
    ensures flow == Stop <==> exit.Break? || (exit.Threw? && Stops(exit.failure))
  {
    match exit
    case Normal => Continue
    case Break => Stop
    case Threw(f) => if Stops(f) then Stop else Continue
    case Stuck => Hung
  }

  /** The loop over a sequence of exchanges: the final state, every request
      sent, every artifact written, how many iterations ran, and how the last
      one ended (`Continue` when the loop was still running). */
  datatype Trace = Trace(session: Session, sent: seq<Sent>, artifacts: seq<Artifact>, cycles: nat, last: Flow)

  function Run(s: Session, exchanges: seq<Exchange>): (t: Trace)
    ensures t.session.running == s.running && t.session.home == s.home
    ensures t.session.service == s.service
    ensures s.registered ==> t.session.registered
    ensures t.cycles <= |exchanges|
    ensures t.last != Continue ==> t.cycles > 0
    decreases |exchanges|
  {
    if !s.running || |exchanges| == 0 then Trace(s, [], [], 0, Continue)
    else
      var it := PollOnce(s, exchanges[0]);
      var flow := FlowOf(it.exit);
      var written := if it.artifact.Some? then [it.artifact.value] else [];
      if flow != Continue then Trace(it.session, it.sent, written, 1, flow)
      else
        var t := Run(it.session, exchanges[1..]);
        Trace(t.session, it.sent + t.sent, written + t.artifacts, 1 + t.cycles, t.last)
  }

  /** `t` after the requests, artifacts and iterations already done. */
  function Joined(sent: seq<Sent>, artifacts: seq<Artifact>, cycles: nat, t: Trace): Trace {
    Trace(t.session, sent + t.sent, artifacts + t.artifacts, cycles + t.cycles, t.last)
  }

  /** One more iteration of the loop, as the imperative loop takes it: the
      first of `exchanges` is polled and the rest are left. */
  lemma RunAdvance(s: Session, exchanges: seq<Exchange>,
                   sent: seq<Sent>, artifacts: seq<Artifact>, cycles: nat)
    requires s.running && exchanges != []
    ensures var it := PollOnce(s, exchanges[0]);
            var written := if it.artifact.Some? then [it.artifact.value] else [];
            var before := Joined(sent, artifacts, cycles, Run(s, exchanges));
            if FlowOf(it.exit) == Continue then
              before == Joined(sent + it.sent, artifacts + written, cycles + 1, Run(it.session, exchanges[1..]))
            else
              before == Trace(it.session, sent + it.sent, artifacts + written, cycles + 1, FlowOf(it.exit))
  {
    var it := PollOnce(s, exchanges[0]);
    if FlowOf(it.exit) == Continue {
      var written := if it.artifact.Some? then [it.artifact.value] else [];
      JoinedStep(sent, artifacts, cycles, it.sent, written, Run(it.session, exchanges[1..]));
    }
  }

  /** Joining is associative: what one iteration adds can move from the
      trace to the prefix. */
  lemma JoinedStep(sent: seq<Sent>, artifacts: seq<Artifact>, cycles: nat,
                   more: seq<Sent>, written: seq<Artifact>, t: Trace)
    ensures Joined(sent, artifacts, cycles, Trace(t.session, more + t.sent, written + t.artifacts, 1 + t.cycles, t.last))
              == Joined(sent + more, artifacts + written, cycles + 1, t)
  {
    assert sent + (more + t.sent) == (sent + more) + t.sent;
    assert artifacts + (written + t.artifacts) == (artifacts + written) + t.artifacts;
  }

  // ---- properties of one iteration ----

  /** The `pushcmd` request of the iteration got a response. */
  predicate Answered(s: Session, ex: Exchange) {
    var p := Prepare(s);
    Requests.Request(p.address, "pushcmd", Timeout(s.registered), p.params, ex.push).result.Returned?
  }

  /** Every request of an iteration, including a download, carries the poll
      command and timeout for the registration state at its start: `push`
      and 15 seconds when registered, `register` and 330 seconds otherwise. */
  lemma RequestsMatchRegistration(s: Session, ex: Exchange)
    ensures forall q :: q in PollOnce(s, ex).sent ==>
              && q.timeout == (if s.registered then 15 else 330)
              && Carries(q, Cmd, Text(if s.registered then "push" else "register"))
  {
    IterationShape(s, ex);
  }

  /** The requests an iteration sends and the address it leaves: the poll,
      then the download when the poll asked for one. */
  lemma IterationShape(s: Session, ex: Exchange)
    ensures var p := Prepare(s);
            var timeout := Timeout(s.registered);
            var o := Requests.Request(p.address, "pushcmd", timeout, p.params, ex.push);
            var d := Requests.Request(o.address, "download", timeout, p.params, ex.download);
            var it := PollOnce(s, ex);
            if o.result.Returned? && ex.reply == Command("download")
            then it.sent == o.sent + d.sent && it.session.address == d.address
            else it.sent == o.sent && it.session.address == o.address
  {
    var p := Prepare(s);
    var timeout := Timeout(s.registered);
    assert PollOnce(s, ex) == Body(p, timeout, ex);
    BodyShape(p, timeout, ex);
    var o := Requests.Request(p.address, "pushcmd", timeout, p.params, ex.push);
    if o.result.Returned? && ex.reply.Command? {
      DispatchShape(p.(address := o.address), ex.reply.cmd, timeout, ex, o.sent);
      DownloadShape(p.(address := o.address), timeout, ex);
    }
  }

  lemma BodyShape(s: Session, timeout: int, ex: Exchange)
    ensures var o := Requests.Request(s.address, "pushcmd", timeout, s.params, ex.push);
            var it := Body(s, timeout, ex);
            if o.result.Returned? && ex.reply.Command?
            then it == Dispatch(s.(address := o.address), ex.reply.cmd, timeout, ex, o.sent)
            else it.sent == o.sent && it.session.address == o.address
  {
  }

  lemma DispatchShape(s: Session, cmd: string, timeout: int, ex: Exchange, sent: seq<Sent>)
    ensures var it := Dispatch(s, cmd, timeout, ex, sent);
            if cmd == "download"
            then it.sent == sent + Download(s, timeout, ex).sent
                 && it.session.address == Download(s, timeout, ex).session.address
            else it.sent == sent && it.session.address == s.address
  {
  }

  lemma DownloadShape(s: Session, timeout: int, ex: Exchange)
    ensures var d := Requests.Request(s.address, "download", timeout, s.params, ex.download);
            var it := Download(s, timeout, ex);
            it.sent == d.sent && it.session.address == d.address
  {
  }

  /** `repeat` registers the device and reports success. */
  lemma RepeatRegisters(s: Session, ex: Exchange)
    requires Answered(s, ex) && ex.reply == Command("repeat")
    ensures var it := PollOnce(s, ex);
            && it.session.registered
            && it.session.params == Prepare(s).params[NepoExitValue := Number(0)]
            && FlowOf(it.exit) == Continue
  {
  }

  /** `abort` ends the loop when registered or when the attached service is
      falsy; with a truthy service an unregistered device draws a new token
      and goes on; with no service the attribute lookup fails, the catch-all
      swallows it and the loop goes on with the token unchanged. */
  lemma AbortOutcomes(s: Session, ex: Exchange)
    requires Answered(s, ex) && ex.reply == Command("abort")
    ensures var it := PollOnce(s, ex);
            && it.artifact == None
            && it.session.registered == s.registered
            && (s.registered ==> FlowOf(it.exit) == Stop)
            && (!s.registered && s.service == Attached(false) ==> FlowOf(it.exit) == Stop)
            && (!s.registered && s.service == Attached(true) ==>
                  FlowOf(it.exit) == Continue
                  && it.session.params == Prepare(s).params[SessionToken := Text(GenerateToken(ex.entropy))])
            && (!s.registered && s.service == Unset ==>
                  FlowOf(it.exit) == Continue
                  && it.session.params == Prepare(s).params)
  {
  }

  /** `update` and unrecognised commands change nothing beyond the fields
      every iteration writes. */
  lemma OtherCommandsIdle(s: Session, ex: Exchange, cmd: string)
    requires Answered(s, ex) && ex.reply == Command(cmd)
    requires cmd !in {"repeat", "abort", "download"}
    ensures var it := PollOnce(s, ex);
            && it.session.params == Prepare(s).params
            && it.session.registered == s.registered
            && it.artifact == None
            && FlowOf(it.exit) == Continue
  {
  }

  /** A successful download stores the patched program under the header's
      name in the home directory, owner-only, and reports its exit code as
      the next `nepoexitvalue`; whichever of the four outcomes the run has,
      the loop goes on. */
  lemma DownloadStoresAndReports(s: Session, ex: Exchange, code: string, disposition: Option<string>)
    requires Answered(s, ex) && ex.reply == Command("download") && ex.writable
    requires var p := Prepare(s);
             var o := Requests.Request(p.address, "pushcmd", Timeout(s.registered), p.params, ex.push);
             Requests.Request(o.address, "download", Timeout(s.registered), p.params, ex.download).result
               == Requests.Returned(Response(Some(code), disposition))
    requires ArtifactName(disposition).Some?
    ensures var it := PollOnce(s, ex);
            && it.artifact == Some(Artifact(PathJoin(s.home, ArtifactName(disposition).value),
                                            PatchCode(code), OwnerRwx))
            && FlowOf(it.exit) == Continue
            && (ExecCode(ex.run(PatchCode(code))).ExitCode? ==>
                  it.session.params
                    == Prepare(s).params[NepoExitValue := Number(ExecCode(ex.run(PatchCode(code))).code)])
            && (ex.run(PatchCode(code)).KeyboardInterruptRaised? ==> it.session.params == Prepare(s).params)
  {
    var p, timeout := Prepare(s), Timeout(s.registered);
    var o := Requests.Request(p.address, "pushcmd", timeout, p.params, ex.push);
    var d := Download(p.(address := o.address), timeout, ex);
    DownloadRuns(p.(address := o.address), timeout, ex, code, disposition);
    assert PollOnce(s, ex) == d.(sent := o.sent + d.sent) by {
      BodyShape(p, timeout, ex);
    }
    assert PollOnce(s, ex).session == d.session && PollOnce(s, ex).artifact == d.artifact
           && PollOnce(s, ex).exit == d.exit;
  }

  /** The `download` branch of `DownloadStoresAndReports` on its own. */
  lemma DownloadRuns(s: Session, timeout: int, ex: Exchange, code: string, disposition: Option<string>)
    requires ex.writable && ArtifactName(disposition).Some?
    requires Requests.Request(s.address, "download", timeout, s.params, ex.download).result
               == Requests.Returned(Response(Some(code), disposition))
    ensures var d := Download(s, timeout, ex);
            && d.artifact == Some(Artifact(PathJoin(s.home, ArtifactName(disposition).value),
                                           PatchCode(code), OwnerRwx))
            && FlowOf(d.exit) == Continue
            && (ExecCode(ex.run(PatchCode(code))).ExitCode? ==>
                  d.session.params == s.params[NepoExitValue := Number(ExecCode(ex.run(PatchCode(code))).code)])
            && (ex.run(PatchCode(code)).KeyboardInterruptRaised? ==> d.session.params == s.params)
  {
  }

  /** An exception from the `pushcmd` request ends the loop exactly when the
      handlers say so, and changes nothing but the fields every iteration
      writes and possibly the address. */
  lemma RequestFailureFlow(s: Session, ex: Exchange, f: Failure)
    requires var p := Prepare(s);
             Requests.Request(p.address, "pushcmd", Timeout(s.registered), p.params, ex.push).result
               == Requests.Raised(f)
    ensures var it := PollOnce(s, ex);
            && (FlowOf(it.exit) == Stop <==> Stops(f))
            && FlowOf(it.exit) != Hung
            && it.session.params == Prepare(s).params
            && it.session.registered == s.registered
  {
  }

  /** Within one iteration an `https://` address is kept and every URL
      requested is `https://`. */
  lemma PollOnceKeepsHttps(s: Session, ex: Exchange)
    requires StartsWith(s.address, Requests.Https)
    ensures var it := PollOnce(s, ex);
            && it.session.address == s.address
            && forall q :: q in it.sent ==> StartsWith(q.url, Requests.Https)
  {
    var p := Prepare(s);
    var timeout := Timeout(s.registered);
    var o := Requests.Request(p.address, "pushcmd", timeout, p.params, ex.push);
    var d := Requests.Request(o.address, "download", timeout, p.params, ex.download);
    assert o.address == s.address && forall q :: q in o.sent ==> StartsWith(q.url, Requests.Https) by {
      UrlKeepsScheme(s.address, "pushcmd");
      Requests.HttpsStays(s.address, s.address + "/" + "pushcmd", "pushcmd", timeout, p.params, ex.push);
    }
    assert d.address == s.address && forall q :: q in d.sent ==> StartsWith(q.url, Requests.Https) by {
      UrlKeepsScheme(s.address, "download");
      Requests.HttpsStays(s.address, s.address + "/" + "download", "download", timeout, p.params, ex.download);
    }
    IterationShape(s, ex);
  }

  lemma UrlKeepsScheme(address: string, cmd: string)
    requires StartsWith(address, Requests.Https)
    ensures StartsWith(address + "/" + cmd, Requests.Https)
  {
    assert address + "/" + cmd == address + ("/" + cmd);
    StartsWithConcat(address, "/" + cmd, Requests.Https);
  }

  /** The address after an iteration is the start address or its `https`
      upgrade. */
  predicate UpgradeOf(address: string, a: string) {
    a == address || (StartsWith(address, Requests.Http) && a == "https" + Drop(address, 4))
  }

  /** From a web address, one iteration at most upgrades the scheme. */
  lemma PollOnceAddress(s: Session, ex: Exchange)
    requires Requests.WebAddress(s.address)
    ensures UpgradeOf(s.address, PollOnce(s, ex).session.address)
  {
    var p := Prepare(s);
    var timeout := Timeout(s.registered);
    var o := Requests.Request(p.address, "pushcmd", timeout, p.params, ex.push);
    var d := Requests.Request(o.address, "download", timeout, p.params, ex.download);
    assert UpgradeOf(s.address, o.address) by {
      Requests.AtMostThreeAttempts(s.address, "pushcmd", timeout, p.params, ex.push);
    }
    assert UpgradeOf(s.address, d.address) by {
      RequestKeepsUpgrade(s.address, o.address, "download", timeout, p.params, ex.download);
    }
    IterationShape(s, ex);
  }

  /** A request from the start address or its upgrade leaves one of the two. */
  lemma RequestKeepsUpgrade(address: string, a: string, cmd: string, timeout: int,
                            payload: Payload, answers: seq<Answer>)
    requires Requests.WebAddress(address) && UpgradeOf(address, a)
    ensures UpgradeOf(address, Requests.Request(a, cmd, timeout, payload, answers).address)
  {
    if a == address {
      Requests.AtMostThreeAttempts(address, cmd, timeout, payload, answers);
    } else {
      Requests.Upgraded(address);
      UrlKeepsScheme(a, cmd);
      Requests.HttpsStays(a, a + "/" + cmd, cmd, timeout, payload, answers);
    }
  }

  /** The name is the text between the first `=` of the header and the
      second one (or the end). */
  lemma NameBetweenSeparators(head: string, name: string, tail: string)
    requires '=' !in head && '=' !in name
    requires tail == [] || tail[0] == '='
    ensures ArtifactName(Some(head + "=" + name + tail)) == Some(name)
  {
    var r := Split(tail, '=');
    assert r[0] == [] by {
      if tail != [] {
        assert Split(tail, '=') == [[]] + Split(tail[1..], '=');
      }
    }
    SplitAfterPrefix(name, tail, '=');
    assert name + r[0] == name;
    var r1 := Split(name + tail, '=');
    assert ("=" + (name + tail))[1..] == name + tail;
    assert Split("=" + (name + tail), '=') == [[]] + r1;
    SplitAfterPrefix(head, "=" + (name + tail), '=');
    assert head + "=" + name + tail == head + ("=" + (name + tail));
  }

  /** The header the server sends with a program. */
  lemma NameFromHeader()
    ensures ArtifactName(Some("filename=prog.py")) == Some("prog.py")
  {
    assert "filename=prog.py" == "filename" + ['='] + "prog.py";
    SplitPair("filename", "prog.py", '=');
  }

  // ---- properties of the loop ----

  /** After an iteration that does not continue, no exchange is consumed and
      no request is sent: the loop is over. */
  lemma NothingAfterStop(s: Session, ex: Exchange, rest: seq<Exchange>)
    requires s.running && FlowOf(PollOnce(s, ex).exit) != Continue
    ensures Run(s, [ex] + rest) == Run(s, [ex])
    ensures Run(s, [ex]).last == FlowOf(PollOnce(s, ex).exit)
  {
    assert ([ex] + rest)[0] == ex;
  }

  /** Once the address is `https://` it stays so for the rest of the run, and
      every request of every later iteration uses it. */
  lemma {:induction false} HttpsPersists(s: Session, exchanges: seq<Exchange>)
    requires StartsWith(s.address, Requests.Https)
    ensures var t := Run(s, exchanges);
            && t.session.address == s.address
            && forall q :: q in t.sent ==> StartsWith(q.url, Requests.Https)
    decreases |exchanges|
  {
    if s.running && exchanges != [] {
      var it := PollOnce(s, exchanges[0]);
      PollOnceKeepsHttps(s, exchanges[0]);
      if FlowOf(it.exit) == Continue {
        HttpsPersists(it.session, exchanges[1..]);
      }
    }
  }

  /** The `/rest/` rewrite is not remembered: after an iteration whose poll
      drew a 404 and was retried under `/rest/`, the next iteration polls
      `address/pushcmd` again. */
  lemma RestForgotten(s: Session, exchanges: seq<Exchange>)
    requires s.running && |exchanges| >= 2
    requires var ex := exchanges[0];
             && |ex.push| >= 2 && ex.push[0] == Raise(HttpError(404)) && ex.push[1].Respond?
             && ex.reply == Command("repeat")
    requires !Contains(s.address + "/" + "pushcmd", Requests.RestSegment)
    requires |exchanges[1].push| > 0
    ensures var t := Run(s, exchanges);
            && |t.sent| >= 3
            && t.sent[0].url == s.address + "/" + "pushcmd"
            && t.sent[1].url == s.address + Requests.RestSegment + "pushcmd"
            && t.sent[2].url == s.address + "/" + "pushcmd"
  {
    var it := PollOnce(s, exchanges[0]);
    NotFoundOnce(s, exchanges[0]);
    assert exchanges[1..][0] == exchanges[1];
    FirstPollUrl(it.session, exchanges[1..]);
  }

  /** The first iteration of `RestForgotten`. */
  lemma NotFoundOnce(s: Session, ex: Exchange)
    requires s.running
    requires |ex.push| >= 2 && ex.push[0] == Raise(HttpError(404)) && ex.push[1].Respond?
    requires ex.reply == Command("repeat")
    requires !Contains(s.address + "/" + "pushcmd", Requests.RestSegment)
    ensures var it := PollOnce(s, ex);
            && |it.sent| == 2
            && it.sent[0].url == s.address + "/" + "pushcmd"
            && it.sent[1].url == s.address + Requests.RestSegment + "pushcmd"
            && it.session.address == s.address && it.session.running
            && FlowOf(it.exit) == Continue
  {
    var p := Prepare(s);
    Requests.NotFoundThenResponse(p.address, "pushcmd", Timeout(s.registered), p.params, ex.push);
  }

  /** Every iteration starts at `address/pushcmd`. */
  lemma FirstPollUrl(s: Session, exchanges: seq<Exchange>)
    requires s.running && |exchanges| > 0 && |exchanges[0].push| > 0
    ensures |Run(s, exchanges).sent| > 0 && Run(s, exchanges).sent[0].url == s.address + "/" + "pushcmd"
  {
    IterationShape(s, exchanges[0]);
  }

  /** A whole session: the server acknowledges the registration, then sends a
      program under a header naming it (`filename=prog.py`, say, by
      `NameFromHeader`) whose `result` is 5; the patched program is stored
      under that name in the home directory, and the next poll is a `push`
      that reports 5. */
  lemma DownloadReportedOnNextPoll(s: Session, exchanges: seq<Exchange>, code: string,
                                   header: string, name: string)
    requires s.running && !s.registered && |exchanges| == 3
    requires var ex := exchanges[0];
             |ex.push| > 0 && ex.push[0].Respond? && ex.reply == Command("repeat")
    requires var ex := exchanges[1];
             && |ex.push| > 0 && ex.push[0].Respond? && ex.reply == Command("download")
             && |ex.download| > 0 && ex.download[0] == Respond(Response(Some(code), Some(header)))
             && ex.writable && ex.run(PatchCode(code)) == Finished(Assigned(5))
    requires |exchanges[2].push| > 0
    requires ArtifactName(Some(header)) == Some(name)
    ensures var t := Run(s, exchanges);
            && t.cycles == 3 && |t.sent| >= 4 && t.session.registered
            && t.sent[0] == Sent(s.address + "/" + "pushcmd", 330, Prepare(s).params)
            && Carries(t.sent[0], Cmd, Text("register"))
            && t.sent[1].url == s.address + "/" + "pushcmd"
            && t.sent[2].url == s.address + "/" + "download"
            && t.sent[3].url == s.address + "/" + "pushcmd" && t.sent[3].timeout == 15
            && Carries(t.sent[3], Cmd, Text("push"))
            && Carries(t.sent[3], NepoExitValue, Number(5))
            && |t.artifacts| >= 1
            && t.artifacts[0] == Artifact(PathJoin(s.home, name), PatchCode(code), OwnerRwx)
  {
    var it := PollOnce(s, exchanges[0]);
    ScenarioRegister(s, exchanges[0]);
    ScenarioRest(it.session, exchanges[1..], code, header, name);
  }

  /** The last two exchanges of the scenario, after the registration. */
  lemma ScenarioRest(s: Session, exchanges: seq<Exchange>, code: string, header: string, name: string)
    requires s.running && s.registered && |exchanges| == 2
    requires var ex := exchanges[0];
             && |ex.push| > 0 && ex.push[0].Respond? && ex.reply == Command("download")
             && |ex.download| > 0 && ex.download[0] == Respond(Response(Some(code), Some(header)))
             && ex.writable && ex.run(PatchCode(code)) == Finished(Assigned(5))
    requires |exchanges[1].push| > 0
    requires ArtifactName(Some(header)) == Some(name)
    ensures var t := Run(s, exchanges);
            && t.cycles == 2 && |t.sent| >= 3 && t.session.registered
            && t.sent[0].url == s.address + "/" + "pushcmd"
            && t.sent[1].url == s.address + "/" + "download"
            && t.sent[2].url == s.address + "/" + "pushcmd" && t.sent[2].timeout == 15
            && Carries(t.sent[2], Cmd, Text("push"))
            && Carries(t.sent[2], NepoExitValue, Number(5))
            && |t.artifacts| >= 1
            && t.artifacts[0] == Artifact(PathJoin(s.home, name), PatchCode(code), OwnerRwx)
  {
    var it := PollOnce(s, exchanges[0]);
    ScenarioDownload(s, exchanges[0], code, header, name);
    ScenarioLast(it.session, exchanges[1..]);
  }

  /** The last exchange of the scenario: the poll that reports the result. */
  lemma ScenarioLast(s: Session, exchanges: seq<Exchange>)
    requires s.running && s.registered && |exchanges| == 1 && |exchanges[0].push| > 0
    requires Has(s.params, NepoExitValue, Number(5))
    ensures var t := Run(s, exchanges);
            && t.cycles == 1 && |t.sent| > 0 && t.session.registered
            && t.sent[0] == Sent(s.address + "/" + "pushcmd", 15, Prepare(s).params)
            && Carries(t.sent[0], Cmd, Text("push"))
            && Carries(t.sent[0], NepoExitValue, Number(5))
  {
    ScenarioReport(s, exchanges[0]);
    assert |exchanges[1..]| == 0;
  }

  lemma ScenarioRegister(s: Session, ex: Exchange)
    requires s.running && !s.registered
    requires |ex.push| > 0 && ex.push[0].Respond? && ex.reply == Command("repeat")
    ensures var it := PollOnce(s, ex);
            && it.sent == [Sent(s.address + "/" + "pushcmd", 330, Prepare(s).params)]
            && Carries(it.sent[0], Cmd, Text("register"))
            && it.session.registered && it.session.running && it.session.address == s.address
            && it.session.home == s.home
            && it.artifact == None && FlowOf(it.exit) == Continue
  {
    var p := Prepare(s);
    Requests.FirstResponse(p.address, "pushcmd", 330, p.params, ex.push);
  }

  lemma ScenarioDownload(s: Session, ex: Exchange, code: string, header: string, name: string)
    requires s.running && s.registered
    requires |ex.push| > 0 && ex.push[0].Respond? && ex.reply == Command("download")
    requires |ex.download| > 0 && ex.download[0] == Respond(Response(Some(code), Some(header)))
    requires ex.writable && ex.run(PatchCode(code)) == Finished(Assigned(5))
    requires ArtifactName(Some(header)) == Some(name)
    ensures var it := PollOnce(s, ex);
            && it.sent == [Sent(s.address + "/" + "pushcmd", 15, Prepare(s).params),
                           Sent(s.address + "/" + "download", 15, Prepare(s).params)]
            && it.session.registered && it.session.running && it.session.address == s.address
            && Has(it.session.params, NepoExitValue, Number(5))
            && it.artifact == Some(Artifact(PathJoin(s.home, name), PatchCode(code), OwnerRwx))
            && FlowOf(it.exit) == Continue
  {
    var p := Prepare(s);
    Requests.FirstResponse(p.address, "pushcmd", 15, p.params, ex.push);
    Requests.FirstResponse(p.address, "download", 15, p.params, ex.download);
  }

  lemma ScenarioReport(s: Session, ex: Exchange)
    requires s.running && s.registered && |ex.push| > 0
    requires Has(s.params, NepoExitValue, Number(5))
    ensures var it := PollOnce(s, ex);
            && |it.sent| > 0
            && it.sent[0] == Sent(s.address + "/" + "pushcmd", 15, Prepare(s).params)
            && Carries(it.sent[0], Cmd, Text("push"))
            && Carries(it.sent[0], NepoExitValue, Number(5))
  {
    RequestsMatchRegistration(s, ex);
    assert PollOnce(s, ex).sent[0] in PollOnce(s, ex).sent;
  }
}

=== FILE: protocol.dfy ===
/** What travels between the connector and the server, with HTTP and JSON
    abstracted: the payload of a request, the server's answer to one attempt,
    and the record of a request that was sent. */
module Protocol {
  import opened Basics
  import opened Failures

  /** A value of the `params` dictionary sent as the JSON request body. */
  datatype Value = Text(s: string) | Number(n: int)

  /** The keys the connector writes into `params`. */
  datatype Field =
    | Cmd | Battery | Robot | FirmwareVersion | FirmwareName
    | MacAddr | SessionToken | NepoExitValue

  /** The JSON member name of each field. */
  function Key(f: Field): string {
    match f
    case Cmd => "cmd"
    case Battery => "battery"
    case Robot => "robot"
    case FirmwareVersion => "firmwareversion"
    case FirmwareName => "firmwarename"
    case MacAddr => "macaddr"
    case SessionToken => "token"
    case NepoExitValue => "nepoexitvalue"
  }

  /** Distinct fields are distinct JSON members, so a map keyed by fields
      is the dictionary the source sends. */
  lemma KeysDistinct(f: Field, g: Field)
    requires f != g
    ensures Key(f) != Key(g)
  {
  }

  type Payload = map<Field, Value>

  /** A successful HTTP response: its body decoded as UTF-8 (`None` when the
      bytes are not UTF-8) and its `Content-Disposition` header, if any. */
  datatype Response = Response(text: Option<string>, disposition: Option<string>)

  /** How the server (or the network) answered one `urlopen` call. */
  datatype Answer = Respond(response: Response) | Raise(failure: Failure)

  /** One `urlopen` call as the server sees it. */
  datatype Sent = Sent(url: string, timeout: int, payload: Payload)

  /** What `json.loads` made of a poll response: an object with a `cmd`
      member, an object without one, or no JSON at all. */
  datatype Reply = Command(cmd: string) | NoCommand | NotJson

  /** The payload maps `key` to `v`. */
  predicate Has(p: Payload, key: Field, v: Value) {
    key in p && p[key] == v
  }

  /** The request carried `key` with value `v` in its JSON body. */
  predicate Carries(q: Sent, key: Field, v: Value) {
    Has(q.payload, key, v)
  }
}

=== FILE: requests.dfy ===
/** `Connector._request` (roberta/lab.py) as a function of the server's
    answers: the URL starts as `address/cmd`; a 404 on a URL without `/rest/`
    retries under `address/rest/cmd`; a 405 on a URL not starting `https://`
    rewrites the first four characters of both the address and the URL to
    `https` and retries; any other error is re-raised; a response is returned.
    The source loops until one of those ends it; here the answers are a finite
    sequence, and running out of them is the outcome `Exhausted`. */
module Requests {
  import opened Basics
  import opened Failures
  import opened Protocol

  datatype Result = Returned(response: Response) | Raised(failure: Failure) | Exhausted

  /** The address afterwards (the 405 rewrite is kept in `self.address`), the
      attempts made, and how the call ended. */
  datatype Outcome = Outcome(address: string, sent: seq<Sent>, result: Result)

  const RestSegment: string := "/rest/"
  const Https: string := "https://"
  const Http: string := "http://"

  /** The address and URL of the next attempt after HTTP status `code`, or
      `None` when the error is re-raised. */
  function Rewrite(address: string, url: string, cmd: string, code: int): (next: Option<(string, string)>)
    ensures code != 404 && code != 405 ==> next.None?
    ensures code == 404 ==> (next.Some? <==> !Contains(url, RestSegment))
    ensures code == 405 ==> (next.Some? <==> !StartsWith(url, Https))
    ensures code == 404 && next.Some? ==> next.value.0 == address
    ensures code == 405 && next.Some? ==> "https" <= next.value.0 && "https" <= next.value.1
  {
    if code == 404 && !Contains(url, RestSegment) then
      Some((address, address + RestSegment + cmd))
    else if code == 405 && !StartsWith(url, Https) then
      Some(("https" + Drop(address, 4), "https" + Drop(url, 4)))
    else
      None
  }

  /** The `while True` loop of `_request`, from the URL of the current attempt. */
  function Attempts(address: string, url: string, cmd: string, timeout: int, payload: Payload,
                    answers: seq<Answer>): (o: Outcome)
    ensures |o.sent| <= |answers|
    ensures answers != [] ==> |o.sent| > 0 && o.sent[0] == Sent(url, timeout, payload)
    ensures o.result.Exhausted? ==> |o.sent| == |answers|
    ensures !o.result.Exhausted? ==> |o.sent| > 0
    ensures o.result.Returned? ==> answers[|o.sent| - 1] == Respond(o.result.response)
    ensures o.result.Raised? ==> answers[|o.sent| - 1] == Raise(o.result.failure)
    ensures forall q :: q in o.sent ==> q.timeout == timeout && q.payload == payload
    decreases |answers|
  {
    if answers == [] then Outcome(address, [], Exhausted)
    else
      var here := Sent(url, timeout, payload);
      match answers[0]
      case Respond(r) => Outcome(address, [here], Returned(r))
      case Raise(f) =>
        var next := if f.HttpError? then Rewrite(address, url, cmd, f.code) else None;
        if next.None? then Outcome(address, [here], Raised(f))
        else
          var o := Attempts(next.value.0, next.value.1, cmd, timeout, payload, answers[1..]);
          Outcome(o.address, [here] + o.sent, o.result)
  }

  /** `o` after the attempts in `sent`. */
  function After(sent: seq<Sent>, o: Outcome): Outcome {
    Outcome(o.address, sent + o.sent, o.result)
  }

  /** One attempt of the loop, as the imperative loop takes it: answer `i`
      after the attempts in `sent`. */
  lemma AttemptsStep(address: string, url: string, cmd: string, timeout: int, payload: Payload,
                     answers: seq<Answer>, i: nat, sent: seq<Sent>)
    requires i < |answers|
    ensures var here := Sent(url, timeout, payload);
            var whole := After(sent, Attempts(address, url, cmd, timeout, payload, answers[i..]));
            var next := if answers[i].Raise? && answers[i].failure.HttpError?
                        then Rewrite(address, url, cmd, answers[i].failure.code) else None;
            && (answers[i].Respond? ==> whole == Outcome(address, sent + [here], Returned(answers[i].response)))
            && (answers[i].Raise? && next.None? ==> whole == Outcome(address, sent + [here], Raised(answers[i].failure)))
            && (answers[i].Raise? && next.Some? ==>
                  whole == After(sent + [here], Attempts(next.value.0, next.value.1, cmd, timeout, payload, answers[i + 1..])))
  {
    assert answers[i..][0] == answers[i];
    assert answers[i..][1..] == answers[i + 1..];
    if answers[i].Raise? && answers[i].failure.HttpError? {
      var next := Rewrite(address, url, cmd, answers[i].failure.code);
      if next.Some? {
        var o := Attempts(next.value.0, next.value.1, cmd, timeout, payload, answers[i + 1..]);
        assert sent + ([Sent(url, timeout, payload)] + o.sent) == sent + [Sent(url, timeout, payload)] + o.sent;
      }
    }
  }

  /** `_request(cmd, headers, timeout)` with `self.params` as the body. */
  function Request(address: string, cmd: string, timeout: int, payload: Payload,
                   answers: seq<Answer>): (o: Outcome)
    ensures answers != [] ==> |o.sent| > 0 && o.sent[0] == Sent(address + "/" + cmd, timeout, payload)
    ensures forall q :: q in o.sent ==> q.timeout == timeout && q.payload == payload
  {
    Attempts(address, address + "/" + cmd, cmd, timeout, payload, answers)
  }

  /** A response to the first attempt is returned as is, after one request
      to `address/cmd`, with the address unchanged. */
  lemma FirstResponse(address: string, cmd: string, timeout: int, payload: Payload, answers: seq<Answer>)
    requires |answers| > 0 && answers[0].Respond?
    ensures Request(address, cmd, timeout, payload, answers)
              == Outcome(address, [Sent(address + "/" + cmd, timeout, payload)], Returned(answers[0].response))
  {
  }

  /** A 404 on `address/cmd` sends the next attempt to `address/rest/cmd`;
      the rewritten URL is local to the call and the address is unchanged. */
  lemma NotFoundThenResponse(address: string, cmd: string, timeout: int, payload: Payload,
                             answers: seq<Answer>)
    requires |answers| >= 2 && answers[0] == Raise(HttpError(404)) && answers[1].Respond?
    requires !Contains(address + "/" + cmd, RestSegment)
    ensures Request(address, cmd, timeout, payload, answers)
              == Outcome(address, [Sent(address + "/" + cmd, timeout, payload),
                                   Sent(address + RestSegment + cmd, timeout, payload)],
                         Returned(answers[1].response))
  {
    var url, url' := address + "/" + cmd, address + RestSegment + cmd;
    assert Rewrite(address, url, cmd, 404) == Some((address, url'));
    assert answers[1..][0] == answers[1];
    assert Attempts(address, url', cmd, timeout, payload, answers[1..])
             == Outcome(address, [Sent(url', timeout, payload)], Returned(answers[1].response));
  }

  // ---- bounded rewriting for web addresses ----

  predicate WebAddress(address: string) {
    StartsWith(address, Http) || StartsWith(address, Https)
  }

  /** The URLs `_request` builds from a web address. */
  predicate OnPath(address: string, url: string, cmd: string) {
    WebAddress(address) && (url == address + "/" + cmd || url == address + RestSegment + cmd)
  }

  /** How many rewrites are still possible for a URL. */
  function Pending(url: string): nat {
    (if Contains(url, RestSegment) then 0 else 1) + (if StartsWith(url, Https) then 0 else 1)
  }

  lemma SchemesExclusive(s: string)
    ensures !(StartsWith(s, Http) && StartsWith(s, Https))
  {
    if StartsWith(s, Http) {
      assert s[4] == Http[4] != Https[4];
    }
  }

  /** Upgrading an `http://` address gives an `https://` one. */
  lemma Upgraded(address: string)
    requires StartsWith(address, Http)
    ensures StartsWith("https" + Drop(address, 4), Https)
  {
    var a' := "https" + Drop(address, 4);
    assert address[4..7] == "://";
    assert Drop(address, 4)[..3] == address[4..7];
    assert a'[..8] == "https" + Drop(address, 4)[..3];
  }

  /** Prefixing "http" or "https" cannot create or destroy `/rest/`. */
  lemma SchemeKeepsRest(y: string)
    ensures Contains("http" + y, RestSegment) <==> Contains(y, RestSegment)
    ensures Contains("https" + y, RestSegment) <==> Contains(y, RestSegment)
  {
    ContainsAfterPrefix("http", y, RestSegment);
    ContainsAfterPrefix("https", y, RestSegment);
  }

  /** Each rewrite keeps the URL on the path, uses up one of the pending
      rewrites, and changes the address at most by upgrading its scheme. */
  lemma RewriteProgress(address: string, url: string, cmd: string, code: int)
    requires OnPath(address, url, cmd)
    requires Rewrite(address, url, cmd, code).Some?
    ensures var (a', u') := Rewrite(address, url, cmd, code).value;
            && OnPath(a', u', cmd)
            && Pending(u') < Pending(url)
            && (a' == address || (StartsWith(address, Http) && a' == "https" + Drop(address, 4)))
            && (a' != address ==> StartsWith(a', Https))
  {
    if code == 404 && !Contains(url, RestSegment) {
      var u' := address + RestSegment + cmd;
      assert Rewrite(address, url, cmd, code) == Some((address, u'));
      assert OnPath(address, u', cmd) && Pending(u') < Pending(url) by {
        SchemeOfUrl(address, url, cmd);
        NotFoundProgress(address, url, cmd);
      }
    } else {
      var tail := if url == address + "/" + cmd then "/" + cmd else RestSegment + cmd;
      var a', u' := "https" + Drop(address, 4), "https" + Drop(url, 4);
      assert Rewrite(address, url, cmd, code) == Some((a', u'));
      assert url == address + tail;
      assert StartsWith(address, Http) && OnPath(a', u', cmd) && Pending(u') < Pending(url)
             && StartsWith(a', Https) by {
        SchemeOfUrl(address, url, cmd);
        MethodNotAllowedProgress(address, tail, cmd);
      }
    }
  }

  /** A URL on the path has the scheme of its address. */
  lemma SchemeOfUrl(address: string, url: string, cmd: string)
    requires OnPath(address, url, cmd)
    ensures StartsWith(url, Https) <==> StartsWith(address, Https)
    ensures StartsWith(address, Http) <==> !StartsWith(url, Https)
  {
    var tail := if url == address + "/" + cmd then "/" + cmd else RestSegment + cmd;
    assert url == address + tail;
    StartsWithConcat(address, tail, if StartsWith(address, Https) then Https else Http);
    SchemesExclusive(url);
  }

  lemma NotFoundProgress(address: string, url: string, cmd: string)
    requires WebAddress(address) && !Contains(url, RestSegment)
    requires StartsWith(url, Https) <==> StartsWith(address, Https)
    ensures var u' := address + RestSegment + cmd;
            && OnPath(address, u', cmd)
            && Pending(u') < Pending(url)
  {
    var u' := address + RestSegment + cmd;
    ContainsInfix(address, RestSegment, cmd);
    assert u' == address + (RestSegment + cmd);
    StartsWithConcat(address, RestSegment + cmd, if StartsWith(address, Https) then Https else Http);
    SchemesExclusive(u');
  }

  lemma MethodNotAllowedProgress(address: string, tail: string, cmd: string)
    requires StartsWith(address, Http)
    requires tail == "/" + cmd || tail == RestSegment + cmd
    ensures var a' := "https" + Drop(address, 4);
            var u' := "https" + Drop(address + tail, 4);
            && OnPath(a', u', cmd)
            && Pending(u') < Pending(address + tail)
            && StartsWith(a', Https)
  {
    var url := address + tail;
    var a' := "https" + Drop(address, 4);
    var u' := "https" + Drop(url, 4);
    assert u' == a' + tail && StartsWith(a', Https) by {
      UpgradeShape(address, tail);
      Upgraded(address);
    }
    assert StartsWith(u', Https) by {
      StartsWithConcat(a', tail, Https);
    }
    assert !StartsWith(url, Https) by {
      UpgradeShape(address, tail);
      SchemesExclusive(url);
    }
    assert Contains(u', RestSegment) == Contains(url, RestSegment) by {
      UpgradeShape(address, tail);
      SchemeKeepsRest(Drop(url, 4));
    }
    assert OnPath(a', u', cmd) by {
      assert a' + "/" + cmd == a' + ("/" + cmd);
      assert a' + RestSegment + cmd == a' + (RestSegment + cmd);
    }
  }

  /** Rewriting the scheme of `address + tail` rewrites that of `address`. */
  lemma UpgradeShape(address: string, tail: string)
    requires StartsWith(address, Http)
    ensures StartsWith(address + tail, Http)
    ensures address + tail == "http" + Drop(address + tail, 4)
    ensures "https" + Drop(address + tail, 4) == ("https" + Drop(address, 4)) + tail
  {
    StartsWithConcat(address, tail, Http);
    assert address[..4] == "http";
    assert (address + tail)[..4] == "http";
    assert Drop(address + tail, 4) == Drop(address, 4) + tail;
  }

  lemma {:induction false} AttemptsBounded(address: string, url: string, cmd: string, timeout: int,
                                           payload: Payload, answers: seq<Answer>)
    requires OnPath(address, url, cmd)
    ensures var o := Attempts(address, url, cmd, timeout, payload, answers);
            && |o.sent| <= Pending(url) + 1
            && (|answers| > Pending(url) ==> !o.result.Exhausted?)
            && (o.address == address || (StartsWith(address, Http) && o.address == "https" + Drop(address, 4)))
    decreases |answers|
  {
    if answers != [] && answers[0].Raise? && answers[0].failure.HttpError? {
      var next := Rewrite(address, url, cmd, answers[0].failure.code);
      if next.Some? {
        RewriteProgress(address, url, cmd, answers[0].failure.code);
        AttemptsBounded(next.value.0, next.value.1, cmd, timeout, payload, answers[1..]);
        SchemesExclusive(next.value.0);
      }
    }
  }

  /** From an `http://` or `https://` address, `_request` makes at most three
      attempts (one `/rest/` rewrite, one scheme rewrite), so three answers
      always settle it; the address is at most upgraded to `https`. */
  lemma AtMostThreeAttempts(address: string, cmd: string, timeout: int, payload: Payload,
                            answers: seq<Answer>)
    requires WebAddress(address)
    ensures var o := Request(address, cmd, timeout, payload, answers);
            && |o.sent| <= 3
            && (|answers| >= 3 ==> !o.result.Exhausted?)
            && (o.address == address || (StartsWith(address, Http) && o.address == "https" + Drop(address, 4)))
  {
    AttemptsBounded(address, address + "/" + cmd, cmd, timeout, payload, answers);
  }

  /** A 404 on the `/rest/` URL is not rewritten again: two 404s in a row
      always end the call with that error, after at most two attempts. */
  lemma SecondNotFoundIsFatal(address: string, url: string, cmd: string, timeout: int,
                              payload: Payload, rest: seq<Answer>)
    ensures var o := Attempts(address, url, cmd, timeout, payload,
                              [Raise(HttpError(404)), Raise(HttpError(404))] + rest);
            && o.result == Raised(HttpError(404))
            && |o.sent| <= 2
            && (|o.sent| == 2 ==> o.sent[1].url == address + RestSegment + cmd)
  {
    var answers := [Raise(HttpError(404)), Raise(HttpError(404))] + rest;
    if !Contains(url, RestSegment) {
      ContainsInfix(address, RestSegment, cmd);
      assert answers[1..] == [Raise(HttpError(404))] + rest;
    }
  }

  /** Once the address is `https://`, no request leaves it and every URL
      attempted is `https://`. */
  lemma {:induction false} HttpsStays(address: string, url: string, cmd: string, timeout: int,
                                      payload: Payload, answers: seq<Answer>)
    requires StartsWith(address, Https) && StartsWith(url, Https)
    ensures var o := Attempts(address, url, cmd, timeout, payload, answers);
            && o.address == address
            && forall q :: q in o.sent ==> StartsWith(q.url, Https)
    decreases |answers|
  {
    if answers != [] && answers[0].Raise? && answers[0].failure.HttpError? {
      var next := Rewrite(address, url, cmd, answers[0].failure.code);
      if next.Some? {
        StartsWithConcat(address, RestSegment + cmd, Https);
        assert address + RestSegment + cmd == address + (RestSegment + cmd);
        HttpsStays(next.value.0, next.value.1, cmd, timeout, payload, answers[1..]);
      }
    }
  }

  /** A 405 on an `http://` address upgrades it to `https://` for good: the
      retry and every later attempt of the call use the upgraded scheme. */
  lemma SchemeUpgrade(address: string, cmd: string, timeout: int, payload: Payload,
                      answers: seq<Answer>)
    requires StartsWith(address, Http)
    requires |answers| >= 2 && answers[0] == Raise(HttpError(405))
    ensures var o := Request(address, cmd, timeout, payload, answers);
            && o.address == "https" + Drop(address, 4)
            && StartsWith(o.address, Https)
            && |o.sent| >= 2
            && o.sent[1].url == "https" + Drop(o.sent[0].url, 4)
            && forall i :: 1 <= i < |o.sent| ==> StartsWith(o.sent[i].url, Https)
  {
    var url := address + "/" + cmd;
    var a' := "https" + Drop(address, 4);
    assert "https" + Drop(url, 4) == a' + "/" + cmd && !StartsWith(url, Https) by {
      assert url == address + ("/" + cmd);
      UpgradeShape(address, "/" + cmd);
      SchemesExclusive(url);
      assert a' + ("/" + cmd) == a' + "/" + cmd;
    }
    assert StartsWith(a', Https) && StartsWith(a' + "/" + cmd, Https) by {
      Upgraded(address);
      StartsWithConcat(a', "/" + cmd, Https);
      assert a' + "/" + cmd == a' + ("/" + cmd);
    }
    HttpsStays(a', a' + "/" + cmd, cmd, timeout, payload, answers[1..]);
    var o' := Attempts(a', a' + "/" + cmd, cmd, timeout, payload, answers[1..]);
    assert Request(address, cmd, timeout, payload, answers)
             == Outcome(o'.address, [Sent(url, timeout, payload)] + o'.sent, o'.result) by {
      assert Rewrite(address, url, cmd, 405) == Some((a', "https" + Drop(url, 4)));
      AttemptsStep(address, url, cmd, timeout, payload, answers, 0, []);
      assert answers[0..] == answers;
    }
    forall i | 1 <= i < |o'.sent| + 1
      ensures StartsWith(([Sent(url, timeout, payload)] + o'.sent)[i].url, Https)
    {
      assert ([Sent(url, timeout, payload)] + o'.sent)[i] == o'.sent[i - 1];
      assert o'.sent[i - 1] in o'.sent;
    }
  }

  // ---- unbounded rewriting for other addresses ----

  /** A URL the 405 rewrite can never turn into `https://`: it starts with
      "https" but is not followed by "://". */
  predicate Stalled(url: string) {
    |url| >= 5 && url[..5] == "https" && !StartsWith(url[5..], "://")
  }

  function Repeat405(n: nat): (answers: seq<Answer>)
    ensures |answers| == n && forall i :: 0 <= i < n ==> answers[i] == Raise(HttpError(405))
  {
    seq(n, _ => Raise(HttpError(405)))
  }

  lemma {:induction false} StalledForever(address: string, url: string, cmd: string, timeout: int,
                                          payload: Payload, n: nat)
    requires Stalled(url)
    ensures var o := Attempts(address, url, cmd, timeout, payload, Repeat405(n));
            o.result == Exhausted && |o.sent| == n
    decreases n
  {
    if n > 0 {
      var answers := Repeat405(n);
      assert !StartsWith(url, Https) by {
        if |url| >= 8 {
          assert url[..8][5..] == url[5..][..3];
        }
      }
      var u' := "https" + Drop(url, 4);
      assert Drop(url, 4) == ['s'] + url[5..];
      assert u'[..5] == "https" && u'[5..] == ['s'] + url[5..];
      assert !StartsWith(u'[5..], "://") by {
        assert u'[5..][0] == 's';
      }
      assert Repeat405(n)[1..] == Repeat405(n - 1);
      StalledForever("https" + Drop(address, 4), u', cmd, timeout, payload, n - 1);
    }
  }

  /** From an address whose URL does not carry "://" after its first four
      characters, the text of the rewrite retries every 405 it is given: if
      every answer were a 405, all of them would be consumed and the call
      would never return. Answers are not tied to the URL, so the `URLError`
      urllib raises for the unknown scheme of such a URL is not modelled. */
  lemma UnboundedRewrites(address: string, cmd: string, timeout: int, payload: Payload, n: nat)
    requires !StartsWith(address + "/" + cmd, Https)
    requires !StartsWith(Drop(address + "/" + cmd, 4), "://")
    ensures var o := Request(address, cmd, timeout, payload, Repeat405(n));
            o.result == Exhausted && |o.sent| == n
  {
    if n > 0 {
      var url := address + "/" + cmd;
      var u' := "https" + Drop(url, 4);
      assert u'[..5] == "https" && u'[5..] == Drop(url, 4);
      assert Stalled(u');
      assert Repeat405(n)[1..] == Repeat405(n - 1);
      StalledForever("https" + Drop(address, 4), u', cmd, timeout, payload, n - 1);
    }
  }
}

=== FILE: token.dfy ===
/** The session token shown to the user for entry in the web front end
    (`generateToken`, roberta/lab.py). The eight random bytes that the
    source draws from `os.urandom(8)` are a parameter here. */
module Token {
  import opened Basics

  /** 32 symbols: the digits 2-9 and the capitals without `I` and `O`, so that
      no two symbols are easily confused when typed in by hand. */
  const Alphabet: string := "23456789ABCDEFGHJKLMNPQRSTUVWXYZ"

  /** The characters deliberately left out of the alphabet. */
  const Ambiguous: string := "01IO"

  /** What `os.urandom(8)` returns. */
  type Entropy = b: seq<byte> | |b| == 8 witness [0, 0, 0, 0, 0, 0, 0, 0]

  /** Symbol `i` of the token is the byte `b[i]` reduced modulo the alphabet size. */
  function GenerateToken(b: Entropy): (token: string)
    ensures |token| == 8
    ensures forall i :: 0 <= i < 8 ==> token[i] == Alphabet[b[i] as int % 32]
    ensures forall c :: c in token ==> c in Alphabet && c !in Ambiguous
  {
    AlphabetAvoidsAmbiguous();
    seq(8, i requires 0 <= i < 8 => Alphabet[b[i] as int % |Alphabet|])
  }

  lemma AlphabetAvoidsAmbiguous()
    ensures |Alphabet| == 32
    ensures forall c :: c in Alphabet ==> c !in Ambiguous
  {
    SymbolsUnambiguous();
    forall c | c in Alphabet
      ensures c !in Ambiguous
    {
      var i :| 0 <= i < |Alphabet| && Alphabet[i] == c;
      assert Unambiguous(c);
    }
  }

  lemma SymbolsUnambiguous()
    ensures forall i :: 0 <= i < |Alphabet| ==> Unambiguous(Alphabet[i])
  {
  }

  /** A digit other than 0 and 1, or a capital other than I and O. */
  predicate Unambiguous(c: char) {
    ('2' <= c <= '9') || ('A' <= c <= 'Z' && c != 'I' && c != 'O')
  }

  /** The position of symbol `c` in the alphabet. */
  function SymbolIndex(c: char): (k: nat)
    requires c in Alphabet
    ensures k < |Alphabet| && Alphabet[k] == c
  {
    FirstIndex(Alphabet, c)
  }

  function FirstIndex(s: string, c: char): (k: nat)
    requires c in s
    ensures k < |s| && s[k] == c
    ensures forall j :: 0 <= j < k ==> s[j] != c
  {
    if s[0] == c then 0 else 1 + FirstIndex(s[1..], c)
  }

  /** Bytes that make `GenerateToken` produce a given token. */
  function EntropyFor(token: string): (b: Entropy)
    requires |token| == 8 && forall c :: c in token ==> c in Alphabet
  {
    seq(8, i requires 0 <= i < 8 => SymbolIndex(token[i]) as byte)
  }

  /** Every eight-symbol word over the alphabet is a token some bytes produce. */
  lemma EveryTokenReachable(token: string)
    requires |token| == 8 && forall c :: c in token ==> c in Alphabet
    ensures GenerateToken(EntropyFor(token)) == token
  {
    var b := EntropyFor(token);
    var t := GenerateToken(b);
    forall i | 0 <= i < 8
      ensures t[i] == token[i]
    {
      SymbolAt(token, b, i);
    }
    assert t == token;
  }

  lemma SymbolAt(token: string, b: Entropy, i: nat)
    requires |token| == 8 && forall c :: c in token ==> c in Alphabet
    requires b == EntropyFor(token) && i < 8
    ensures Alphabet[b[i] as int % 32] == token[i]
  {
    var c := token[i];
    assert c in token;
    var k := SymbolIndex(c);
    assert b[i] as int == k;
    IndexBelowModulus(k);
  }

  /** A symbol index is its own residue, so `SymbolAt` reads the symbol back. */
  lemma IndexBelowModulus(k: nat)
    requires k < 32
    ensures k % 32 == k
  {
  }

  /** The alphabet's symbols are pairwise distinct. */
  lemma AlphabetDistinct()
    ensures forall i, j :: 0 <= i < j < |Alphabet| ==> Alphabet[i] != Alphabet[j]
  {
    assert forall i :: 0 <= i < |Alphabet| - 1 ==> Alphabet[i] < Alphabet[i + 1];
    forall i, j | 0 <= i < j < |Alphabet|
      ensures Alphabet[i] < Alphabet[j]
    {
      AscendingFrom(i, j);
    }
  }

  lemma AscendingFrom(i: nat, j: nat)
    requires i < j < |Alphabet|
    requires forall k :: 0 <= k < |Alphabet| - 1 ==> Alphabet[k] < Alphabet[k + 1]
    ensures Alphabet[i] < Alphabet[j]
    decreases j - i
  {
    if i + 1 < j {
      AscendingFrom(i + 1, j);
    }
  }

  /** The token determines each byte modulo 32: distinct residues give
      distinct tokens, so all 32^8 tokens are equally likely for uniform bytes. */
  lemma TokenDeterminesResidues(b: Entropy, b': Entropy)
    requires GenerateToken(b) == GenerateToken(b')
    ensures forall i :: 0 <= i < 8 ==> b[i] as int % 32 == b'[i] as int % 32
  {
    AlphabetDistinct();
    forall i | 0 <= i < 8
      ensures b[i] as int % 32 == b'[i] as int % 32
    {
      assert GenerateToken(b)[i] == GenerateToken(b')[i];
    }
  }
}
